=== FILE: README.md ===
# Direct messages: a Dafny model

This project models the direct-messaging core of a small Firebase web client.
It has three parts:

- **The conversation and message service** (`src/services/messages.js`):
  - looking an account up by its normalised e-mail;
  - finding or creating the one two-party conversation of a pair of accounts;
  - sending a message, which appends it to the conversation's log and then updates the conversation's preview;
  - the ordered views the two live subscriptions deliver.
- **The user-directory upsert** (`src/services/users.js`): the signed-in account creates or merges its own `/users/{uid}` document.
- **The messages page as a session controller** (`src/features/messages/MessagesPage.jsx`): a class with the page's state fields. Its methods are the auth listener, the two subscription callbacks, the two forms and the clicks. Its functions are the derived values `current`, `others`, `other` and the labels.

The hosted database is an abstract store, the class `Store.Db`:

- It holds the `users` and `conversations` collections and one message log per conversation.
- Each collection lists its documents in the store's own listing order.
- Server timestamps come from a monotone counter.
- Automatic ids are fresh by construction.
- A `Net` parameter says which store call of an operation fails, if any.
- The signed-in account (`auth.currentUser`) is an explicit `Option<AuthUser>`.

Each operation that changes the store is a method. Its contract ties the result and the new store to a specification function of the old store: `Users.SelfEnsured`, `Messages.Ensured` or `Messages.Sent`. What the source promises is then proved about those functions as lemmas, including that each keeps a consistent store (`Store.StateValid`) consistent.

Files:

| file | module | content |
|---|---|---|
| text.dfy | Text | trim, lower-case, e-mail normalisation, `slice` |
| sorting.dfy | Sorting | the stable sort a single-field ordered query applies |
| store.dfy | Store | records, the store class, failures, clock and ids |
| users.dfy | Users | `ensureSelfUserDoc` |
| messages.dfy | Messages | lookup, find-or-create, send, views |
| page.dfy | Page | the page controller and its derived values |

## Model

| member | source | states |
|---|---|---|
| Text.Trim | src/services/messages.js:10 | `trim()`: the result is no longer than the input and neither starts nor ends with whitespace |
| Text.TrimDropsOnlySpace | src/services/messages.js:112 | trimming removes only whitespace: the input is whitespace + result + whitespace |
| Text.TrimPadded | src/services/users.js:14 | a tight string padded with whitespace on both sides trims back to itself |
| Text.TrimEmptyIffAllSpace | src/services/messages.js:113 | a text is blank after trimming exactly when it is all whitespace, in both directions |
| Text.LowerChar | src/services/messages.js:10 | lower-casing one character maps each capital 'A'..'Z' to the letter 32 code points above it, keeps every other character, and leaves no upper-case letter |
| Text.ToLower | src/services/messages.js:10 | `toLowerCase()` keeps the length and lower-cases each character in place |
| Text.LowerOfLowerUnchanged | src/services/messages.js:10 | lower-casing a string with no upper-case letter changes nothing |
| Text.Normalize | src/services/users.js:14 | `trim().toLowerCase()` never makes an address longer |
| Text.NormalizeIsNormal | src/services/users.js:14 | a normalised e-mail has no surrounding whitespace and no upper-case letter |
| Text.NormalizeIdempotent | src/services/users.js:14 | normalising a stored `normalizedEmail` again gives the same string |
| Text.NormalizeIgnoresPaddingAndCase | src/services/messages.js:10 | any whitespace padding and any letter-case variant of an e-mail normalises like the e-mail |
| Text.NormalizeSameOnlyForVariants | src/services/messages.js:10-11 | conversely, a string normalises like an e-mail only when it is a whitespace-padded letter-case variant of the e-mail's trimmed text |
| Text.Prefix | src/services/messages.js:120 | `slice(0, n)` is a prefix of the text of length min(n, length) |
| Sorting.Insert | src/services/messages.js:74 | inserting into an ascending list keeps it ascending and is a permutation of the list plus the element |
| Sorting.Sort | src/services/messages.js:93 | an ordered query's rows are ascending by the key and a permutation of the matching rows |
| Sorting.SortOfAscending | src/services/messages.js:93 | the sort is stable on input already in order: it changes nothing |
| Users.Created | src/services/users.js:12-21 | a created document has `createdAt` and `updatedAt` both at the write time, no `firstName` and no other field, and its `normalizedEmail` is the normalisation of its stored e-mail |
| Users.Merged | src/services/users.js:12-23 | a merge keeps `createdAt`, `firstName` and every other field, sets `updatedAt` to the write time, and writes the same base fields a create would |
| Users.Upsert | src/services/users.js:12-24 | after the upsert `uid` has a document whose base fields are the account's values (missing ones ""), `normalizedEmail` is the normalised e-mail, `updatedAt` is the write time, and no other key appears |
| Users.UpsertKeepsOthers | src/services/users.js:9-24 | no other account's document changes and the directory stays indexed |
| Users.UpsertCreates | src/services/users.js:20-21 | a new document has `createdAt` and `updatedAt` both set to the write time and is listed last |
| Users.UpsertMerges | src/services/users.js:22-23 | a merge keeps `createdAt`, `firstName` and every field outside the base fields |
| Users.UpsertTwice | src/services/users.js:9-24 | repeating the upsert adds no document, keeps `createdAt`, changes only `updatedAt`, and `updatedAt` does not go back |
| Users.SelfEnsured | src/services/users.js:5-25 | a failure writes nothing, and conversations, messages and ids are never touched |
| Users.SelfEnsuredOutcomes | src/services/users.js:5-25 | without an account nothing happens; the call fails exactly when one of its two store calls fails, and then writes nothing; otherwise it upserts at the next server time; conversations and messages are untouched |
| Users.SelfEnsuredKeepsValid | src/services/users.js:5-25 | the operation keeps a consistent store consistent |
| Users.WriteSelf | src/services/users.js:20-24 | the write, given whether the document exists: the directory becomes exactly the upsert at the next server time and nothing else changes |
| Users.EnsureSelfUserDoc | src/services/users.js:5-25 | reads the document and then creates or merges it; result and new store are exactly `SelfEnsured` of the old store |
| Messages.FirstWithEmail | src/services/messages.js:11-14 | the first listed document whose `normalizedEmail` equals the query, or none exactly when no listed document matches |
| Messages.ProfileOf | src/services/messages.js:16-21 | the returned profile has the document id as uid; its e-mail is the stored one when set, else the query; `displayName` is `firstName`, else the stored `displayName`, else absent; `photoURL` is the stored one when set, else absent |
| Messages.LookupUserByEmail | src/services/messages.js:9-22 | null, not an error, exactly when no listed document holds the normalised query; otherwise the first such account, its uid the document id, `displayName` from `firstName`, else `displayName`, else null, `email` falling back to the query and `photoURL` to null |
| Messages.FoundWhenListed | src/services/messages.js:11-13 | a listed account whose document holds the normalised query is found |
| Messages.LookupFindsRegisteredEmail | src/services/messages.js:10 | after an account's upsert, a query normalising like its e-mail finds an account, and finds that account when no other holds the same e-mail |
| Messages.LookupFindsAnyVariant | src/services/users.js:14 | the round trip across both services: any padding or case variant of a registered e-mail finds an account |
| Messages.MemberRows | src/services/messages.js:32-36 | the `array-contains` query: exactly the listed conversations whose `members` contain the account, each as stored |
| Messages.IsPairMeans | src/services/messages.js:41 | the intended member test holds exactly when the list contains both accounts and nobody else, in both directions |
| Messages.OwnPairAsWrittenMeans | src/services/messages.js:41 | the written test with one's own e-mail holds exactly when the list contains me and exactly one other account, in both directions |
| Messages.PairTestsAgreeForDistinct | src/services/messages.js:40-41 | for two different accounts the written member test and the exact member-set test agree, in both directions |
| Messages.OwnEmailMatchesOtherConversation | src/services/messages.js:40-41 | with one's own e-mail the written test takes a conversation with someone else for one's own |
| Messages.SelfConversationNeverMatchesAsWritten | src/services/messages.js:40-41 | the written test never accepts the `[me, me]` conversation created for one's own e-mail |
| Messages.LastPair | src/services/messages.js:37-44 | the scan's outcome: none exactly when no row is a conversation of exactly the two accounts, else the last such row |
| Messages.FindExisting | src/services/messages.js:37-44 | the `forEach` scan that overwrites `exist` returns exactly `LastPair` of the rows |
| Messages.LastPairAsWritten | src/services/messages.js:37-44 | the scan with the written member test: none exactly when no row passes that test, otherwise the last row that passes it |
| Messages.LastPairAgreesForDistinct | src/services/messages.js:37-44 | for two different accounts the written scan and the intended scan return the same row or both none |
| Messages.OwnEmailScanReusesOtherConversation | src/services/messages.js:37-45 | with one's own e-mail and only a conversation with bob, the written scan returns that conversation while the intended scan finds none |
| Messages.SelfInfo | src/services/messages.js:51-56 | my own snapshot carries my uid and e-mail; `displayName` and `photoURL` are present exactly when set, and then are mine |
| Messages.NewConversation | src/services/messages.js:48-62 | the payload: `members` = [me, other], `membersInfo` keyed by both uids with other's profile and my own snapshot, an empty `lastMessage` from null; `createdAt`, `updatedAt` and `lastMessage.createdAt` are all the write's server time |
| Messages.WithConversation | src/services/messages.js:63 | `addDoc`: the conversation is stored under the next automatic id and listed last; users and messages are unchanged |
| Messages.WithConversationValid | src/services/messages.js:63 | the new id was never used, and the addition keeps the store consistent |
| Messages.AddConversation | src/services/messages.js:63 | `addDoc` returns the next automatic id and leaves exactly `WithConversation` of the old store |
| Messages.Ensured | src/services/messages.js:25-65 | a failure writes nothing; "Not signed in" exactly without an account; "User not found" exactly when the lookup is null; users and messages are never touched |
| Messages.EnsuredFindsOrCreates | src/services/messages.js:37-64 | the result is a conversation of exactly the two accounts; an existing one is the last one scanned and nothing is written; otherwise exactly one conversation is added under a fresh id and every existing one is unchanged |
| Messages.EnsuredResultStored | src/services/messages.js:45-64 | a returned conversation is stored under the returned id, as returned, with me among its members |
| Messages.EnsuredReuses | src/services/messages.js:45 | with a matching conversation the call returns it and writes nothing |
| Messages.EnsuredCreates | src/services/messages.js:48-64 | without a matching conversation the call adds the payload under the next id and returns it |
| Messages.EnsuredKeepsValid | src/services/messages.js:25-65 | the operation keeps a consistent store consistent |
| Messages.MemberRowsAppend | src/services/messages.js:32-36 | listing one more conversation adds at most its row, at the end of the query rows |
| Messages.MemberRowsFreshKey | src/services/messages.js:32-36 | a document under an unlisted id does not change the query rows |
| Messages.EnsuredTwice | src/services/messages.js:25-65 | a second sequential call for the same pair returns the same conversation and writes nothing, so the pair keeps one conversation |
| Messages.EnsureConversationWithEmail | src/services/messages.js:25-65 | lookup, query, scan, then `addDoc` when nothing matched; result and new store are exactly `Ensured` of the old store |
| Messages.Previewed | src/services/messages.js:119-122 | the preview update sets `lastMessage` to the first min(200, length) characters of the body, from me, and `updatedAt`; members, their snapshots and `createdAt` are kept |
| Messages.Appended | src/services/messages.js:115-116 | the message write appends one message {from, body, next server time} under the next id to that conversation's log and to no other |
| Messages.WithPreview | src/services/messages.js:119-122 | `updateDoc` changes only the preview of that conversation |
| Messages.Sent | src/services/messages.js:109-125 | no account throws "Not signed in"; a text blank after trimming is a no-op returning nothing; a failed first store call writes nothing; a returned id is the new message's id; users are never touched |
| Messages.SentAppendsOneMessage | src/services/messages.js:115-124 | past its first store call a send appends exactly {me, trimmed text} to that log and no other; it succeeds exactly when the second call succeeds on an existing conversation; then only that conversation's preview changes, and otherwise no conversation changes |
| Messages.AppendKeepsLogsValid | src/services/messages.js:115-116 | a message committed later than every other keeps all logs in commit order |
| Messages.SentKeepsValid | src/services/messages.js:109-125 | the operation keeps a consistent store consistent |
| Messages.AppendMessage | src/services/messages.js:115-116 | the message write of the store object returns the next id and leaves exactly `Appended` |
| Messages.UpdatePreview | src/services/messages.js:119-122 | the preview write of the store object leaves exactly `WithPreview` |
| Messages.SendMessage | src/services/messages.js:109-125 | trim, append, update the preview; result and new store are exactly `Sent` of the old store |
| Messages.ConversationsView | src/services/messages.js:71-79 | the snapshot has one row per conversation containing the account |
| Messages.ConversationsViewLists | src/services/messages.js:71-79 | the conversation snapshot holds exactly the conversations containing the account, as stored, with `updatedAt` descending |
| Messages.SubscribeConversations | src/services/messages.js:68-80 | subscribing throws "Not signed in" exactly without an account; otherwise the snapshot is the account's conversation view, every row of which contains the account |
| Messages.MessagesView | src/services/messages.js:91-98 | the snapshot has one row per message of the conversation |
| Messages.MessagesViewLists | src/services/messages.js:91-98 | the message snapshot holds exactly the conversation's messages with `createdAt` ascending |
| Messages.MessagesViewIsLog | src/services/messages.js:91-98 | in a consistent store the message snapshot is the log itself, in commit order |
| Messages.NewMessageListedLast | src/services/messages.js:115-116 | a message sent after the others is listed after them |
| Page.CurrentOf | src/features/messages/MessagesPage.jsx:90-93 | `current` is the first listed conversation with the selected id, or none exactly when no row has that id |
| Page.Without | src/features/messages/MessagesPage.jsx:96 | `filter`: the result holds exactly the members other than me, and its first element is the first member that is not me |
| Page.WithoutCounts | src/features/messages/MessagesPage.jsx:96 | `filter` drops every copy of me and keeps every other member as often as it occurs |
| Page.WithoutKeepsOrder | src/features/messages/MessagesPage.jsx:96 | `filter` of a concatenation is the concatenation of the filters, so kept members stay in order |
| Page.OthersOf | src/features/messages/MessagesPage.jsx:94-97 | `others` is empty without a selection or an account, else exactly the other members |
| Page.OtherOf | src/features/messages/MessagesPage.jsx:98-101 | `other` is null without a selection or other members; otherwise it is the snapshot of the first other member when that member has one, and null when it has none |
| Page.PeerIsFirstOtherMember | src/features/messages/MessagesPage.jsx:90-101 | the peer is the snapshot of the selected conversation's first member that is not me; there is none without a selection, an account, or another member |
| Page.FirstOtherMemberIsPeer | src/features/messages/MessagesPage.jsx:90-101 | conversely, with a selection and an account, the snapshot of the first member that is not me is the peer, and without such a snapshot there is no peer |
| Page.Label | src/features/messages/MessagesPage.jsx:160 | `displayName`, else `email`, else the fallback; never empty with a non-empty fallback |
| Page.ConvLabel | src/features/messages/MessagesPage.jsx:157-160 | a sidebar label is never empty |
| Page.SidebarLabelNamesPeer | src/features/messages/MessagesPage.jsx:158-160 | the sidebar label of the selected conversation names the peer the header shows |
| Page.AutoSelectAsWritten | src/features/messages/MessagesPage.jsx:53-55 | the update as written: the first row replaces the selection whenever the selection captured at subscription time was empty |
| Page.AutoSelect | src/features/messages/MessagesPage.jsx:55 | the first row is selected only when nothing is selected and the list is non-empty; an existing selection is never overwritten |
| Page.StaleSelectionOverwritten | src/features/messages/MessagesPage.jsx:53-61 | a selection made after subscribing is overwritten by the written update and kept by the intended one |
| Page.AutoSelectAgreesWhileUnchanged | src/features/messages/MessagesPage.jsx:55 | while the selection is still the captured one, both updates agree |
| Page.MessagesPage.RunEffects | src/features/messages/MessagesPage.jsx:51-88 | the conversation subscription runs exactly when ready; the message subscription runs exactly when ready with a selection, and otherwise the list is emptied |
| Page.MessagesPage.constructor | src/features/messages/MessagesPage.jsx:19-28 | the route's id or "" is selected; the page is not ready and every list and field is empty |
| Page.MessagesPage.OnAuthStateChanged | src/features/messages/MessagesPage.jsx:34-46 | signing out clears `ready`; signing in sets `ready` after the user document is ensured, whether that succeeded or failed; the store changes exactly as `SelfEnsured` says |
| Page.MessagesPage.OnConversationsSnapshot | src/features/messages/MessagesPage.jsx:53-55 | the list becomes the account's conversation view and the selection follows `AutoSelect` |
| Page.MessagesPage.Show | src/features/messages/MessagesPage.jsx:54-55 | the list is replaced and the selection follows `AutoSelect`; the message list is kept |
| Page.MessagesPage.OnMessagesSnapshot | src/features/messages/MessagesPage.jsx:71-72 | the message list becomes the selected conversation's view, which in a consistent store is its log |
| Page.MessagesPage.OnMessagesError | src/features/messages/MessagesPage.jsx:81-85 | a subscription error empties the message list |
| Page.MessagesPage.Select | src/features/messages/MessagesPage.jsx:166 | a click selects that row's conversation and watches its messages |
| Page.MessagesPage.EditInput | src/features/messages/MessagesPage.jsx:234 | typing sets the message field |
| Page.MessagesPage.EditEmail | src/features/messages/MessagesPage.jsx:146 | typing sets the e-mail field |
| Page.MessagesPage.StartNew | src/features/messages/MessagesPage.jsx:103-116 | nothing happens exactly when the trimmed e-mail is blank, the page is not ready or there is no account; otherwise the store changes as `Ensured` says; success selects the stored conversation and clears the field; failure keeps both; `busyNew` ends false |
| Page.MessagesPage.Open | src/features/messages/MessagesPage.jsx:106-115 | past the guard: the store changes as `Ensured` says; on success the returned conversation is stored with me as a member, selected, and the field cleared; on failure the selection and the field are kept |
| Page.MessagesPage.Opened | src/features/messages/MessagesPage.jsx:109-114 | on success the conversation is selected and the field cleared, on failure both are kept; `busyNew` ends false |
| Page.MessagesPage.OnSend | src/features/messages/MessagesPage.jsx:118-133 | nothing happens exactly when the input is blank after trimming, nothing is selected, the page is not ready or there is no account; otherwise the store changes as `Sent` says; success clears the input and a message id is returned; failure restores the exact untrimmed input; `busySend` ends false |

## Left out

- The Firebase SDK calls themselves (`getDocs`, `getDoc`, `addDoc`, `setDoc`, `updateDoc`, `onSnapshot`), persistence, replication and the security rules. The store is an in-memory class and a failing call is chosen by the `Net` parameter.
- Subscription delivery, cancel handles and effect cleanup. The model states only what each delivered snapshot contains, and which subscriptions are running (`listening`, `watching`).
- The race between two sessions creating the same pair's conversation. Each handler and service call runs to completion without interleaving.
- Wall-clock values of `serverTimestamp()`. A counter stands for them; all sentinels of one write share one value.
- The real listing order of query results. It is the store's `order` sequence, which lists documents in creation order.
- Full Unicode `trim` and `toLowerCase`, and UTF-16 code units in `slice`. Whitespace and case are ASCII only, and a string is a sequence of characters.
- Rendering, navigation (`nav`, `window.history`), `alert`, `console.error`, the `setTimeout` scroll, and timestamp formatting.
- The conversation-subscription error handler. It only logs.
- The busy flags during the awaited call. They are visible only while the handler is suspended, and handlers are atomic here. The model states only that they end false.
- An edit of the message field made while a send is awaited. The source's restore overwrites it; the model has no such interleaving.
- Messages left over from a previously selected conversation until the first snapshot of the new one arrives. `msgs` is kept on a selection change and replaced by the next `OnMessagesSnapshot`.
- The `auth.currentUser` read inside each service. It is the page's `me`, passed as a parameter.
- `Page.MessagesPage.OnAuthStateChanged`: an exception escaping `ensureSelfUserDoc` is returned as `r` instead of being thrown past the handler.
- `Store.Db`: store consistency (`StateValid`) is proved as lemmas about the specification functions, not kept as an invariant of the class.
- A conversation document that carries its own `id` field, which the source's spread `{ id: d.id, ...data }` would let override the document id. Conversations here have no such field.
- Messages.LastPair: uses the intended member test (exactly {me, other}) rather than the written one of `src/services/messages.js:41`; the two differ only when the e-mail found is one's own (see Findings). `Messages.LastPairAsWritten` is the written scan and `Messages.LastPairAgreesForDistinct` proves both return the same row for two different accounts.
- Messages.FindExisting: returns `LastPair`, so it follows the intended member test; for two different accounts it is the written scan by `Messages.LastPairAgreesForDistinct`.
- Messages.Ensured: reuses a conversation by the intended member test; with one's own e-mail the source would instead reuse any two-member conversation containing me (`Messages.OwnEmailScanReusesOtherConversation`), which this function does not capture.
- Messages.EnsuredFindsOrCreates: proved of `Ensured`, so its "exactly the two accounts" holds of the intended test; with one's own e-mail and a conversation with someone else the source returns that other conversation.
- Messages.EnsuredReuses: "a matching conversation" means one passing the intended test; the written test also matches other conversations when the e-mail is one's own.
- Messages.EnsuredCreates: "no matching conversation" means none passing the intended test; with one's own e-mail the source creates a `[me, me]` conversation only when no two-member conversation contains me.
- Messages.EnsuredTwice: proved of the intended test; under the written test a second call with one's own e-mail does not find the `[me, me]` conversation the first created (`Messages.SelfConversationNeverMatchesAsWritten`).
- Messages.EnsureConversationWithEmail: the method scans with the intended member test; for two different accounts this is the written scan (`Messages.LastPairAgreesForDistinct`), for one's own e-mail it is not (see Findings).
- Page.MessagesPage.Show: selects by `AutoSelect` on the current selection, not by the written rule on the selection captured when the subscription started (`src/features/messages/MessagesPage.jsx:55`, effect dependencies at line 61); the two agree while the selection is still the captured one (`Page.AutoSelectAgreesWhileUnchanged`), and `Page.StaleSelectionOverwritten` shows where they differ.
- Page.MessagesPage.OnConversationsSnapshot: delivers its rows through `Show`, so it follows the same intended selection rule rather than the captured `cid` (see Findings).

## Findings

| source | as written | input that shows it | evidently intended | confidence | as-written member | corrected member |
|---|---|---|---|---|---|---|
| src/features/messages/MessagesPage.jsx:55 | the snapshot callback tests the `cid` captured when the subscription started, and the effect is not re-run when the selection changes, so later snapshots write the first row over the current selection | subscribed with nothing selected, then "b" selected; a snapshot listing "a" first selects "a" | only an empty selection is replaced by the first row | high (not executed) | Page.AutoSelectAsWritten, Page.StaleSelectionOverwritten | Page.AutoSelect, Page.AutoSelectAgreesWhileUnchanged |
| src/services/messages.js:41 | the member test `has(me) && has(other) && size === 2` accepts any two-member conversation containing me when `other` is me | my own e-mail and a conversation with members ["me", "bob"]: it is returned as my conversation with myself, and the `[me, me]` conversation created otherwise never matches again | the member set is exactly {me, other} | medium (not executed) | Messages.IsPairAsWritten, Messages.OwnPairAsWrittenMeans, Messages.OwnEmailMatchesOtherConversation, Messages.SelfConversationNeverMatchesAsWritten, Messages.LastPairAsWritten, Messages.OwnEmailScanReusesOtherConversation | Messages.IsPair, Messages.IsPairMeans, Messages.PairTestsAgreeForDistinct, Messages.LastPairAgreesForDistinct |

=== FILE: messages.dfy ===
/**
 * The conversation and message service: looking up an account by e-mail,
 * finding or creating the two-party conversation with it, sending a message,
 * and the ordered views the two live subscriptions deliver.
 */
module Messages {
  import opened Text
  import opened Sorting
  import opened Store
  import Users

  // ---------------------------------------------------------------------------
  // lookupUserByEmail

  /** `uid`'s document exists and its `normalizedEmail` is `norm`. */
  predicate HasEmail(dir: Directory, uid: Uid, norm: string) {
    uid in dir.docs && dir.docs[uid].normalizedEmail == Some(norm)
  }

  /** The position of the first listed document whose `normalizedEmail` is `norm`. */
  function FirstWithEmail(order: seq<Uid>, dir: Directory, norm: string): (r: Option<nat>)
    ensures r.Some? ==> r.value < |order| && HasEmail(dir, order[r.value], norm)
    ensures r.Some? ==> forall k :: 0 <= k < r.value ==> !HasEmail(dir, order[k], norm)
    ensures r.None? <==> forall k :: 0 <= k < |order| ==> !HasEmail(dir, order[k], norm)
  {
    if order == [] then
      None
    else if HasEmail(dir, order[0], norm) then
      Some(0)
    else
      match FirstWithEmail(order[1..], dir, norm)
      case None =>
        assert forall k :: 1 <= k < |order| ==> order[k] == order[1..][k - 1];
        None
      case Some(k) =>
        assert forall j :: 1 <= j < k + 1 ==> order[j] == order[1..][j - 1];
        Some(k + 1)
  }

  /** The row the lookup returns for a matching document. */
  function ProfileOf(uid: Uid, d: UserDoc, query: string): (r: MemberInfo)
    ensures r.uid == uid && r.email.Some?
    ensures Truthy(d.email) ==> r.email == d.email
    ensures !Truthy(d.email) ==> r.email == Some(query)
    ensures r.displayName.None? || Truthy(r.displayName)
    ensures r.displayName.None? <==> !Truthy(d.firstName) && !Truthy(d.displayName)
    ensures r.photoURL.None? || r.photoURL == d.photoURL
    ensures r.displayName == (if Truthy(d.firstName) then d.firstName
                              else if Truthy(d.displayName) then d.displayName
                              else None)
    ensures r.photoURL == (if Truthy(d.photoURL) then d.photoURL else None)
  {
    MemberInfo(
      uid := uid,
      email := Some(if Truthy(d.email) then d.email.value else query),
      displayName := OrNull(Or(d.firstName, d.displayName)),
      photoURL := OrNull(d.photoURL))
  }

  /**
   * Normalises the query and returns the first listed account whose stored
   * `normalizedEmail` equals it, or nothing (not an error) when none does.
   * Its uid is the document id; `displayName` prefers `firstName`, then
   * `displayName`, then null; `email` falls back to the query as typed and
   * `photoURL` to null.
   */
  function LookupUserByEmail(dir: Directory, email: string): (r: Option<MemberInfo>)
    ensures r.None? <==> forall k :: 0 <= k < |dir.order| ==> !HasEmail(dir, dir.order[k], Normalize(email))
    ensures r.Some? ==>
      exists k :: 0 <= k < |dir.order| && dir.order[k] == r.value.uid
        && HasEmail(dir, r.value.uid, Normalize(email))
        && forall j :: 0 <= j < k ==> !HasEmail(dir, dir.order[j], Normalize(email))
    ensures r.Some? ==> r.value.uid in dir.docs
    ensures r.Some? ==>
      var d := dir.docs[r.value.uid];
      && r.value.email == Some(if Truthy(d.email) then d.email.value else email)
      && r.value.displayName == (if Truthy(d.firstName) then d.firstName
                                 else if Truthy(d.displayName) then d.displayName
                                 else None)
      && r.value.photoURL == (if Truthy(d.photoURL) then d.photoURL else None)
  {
    match FirstWithEmail(dir.order, dir, Normalize(email))
    case None => None
    case Some(k) => Some(ProfileOf(dir.order[k], dir.docs[dir.order[k]], email))
  }

  /**
   * After an account's upsert, a query that normalises like the account's
   * e-mail finds an account; it finds that very account unless another
   * one already held the same normalised e-mail.
   */
  lemma {:induction false} LookupFindsRegisteredEmail(dir: Directory, u: AuthUser, t: Time, query: string)
    requires Indexed(dir.docs, dir.order)
    requires Normalize(query) == Normalize(OrEmpty(u.email))
    ensures LookupUserByEmail(Users.Upsert(dir, u, t), query).Some?
    ensures (forall v :: v in dir.docs && v != u.uid ==> !HasEmail(dir, v, Normalize(query))) ==>
      LookupUserByEmail(Users.Upsert(dir, u, t), query).value.uid == u.uid
  {
    var after := Users.Upsert(dir, u, t);
    Users.UpsertKeepsOthers(dir, u, t);
    FoundWhenListed(after, u.uid, query);
    if forall v :: v in dir.docs && v != u.uid ==> !HasEmail(dir, v, Normalize(query)) {
      var found := LookupUserByEmail(after, query).value.uid;
      if found != u.uid {
        assert HasEmail(dir, found, Normalize(query));
        assert false;
      }
    }
  }

  /** A listed account whose document holds the query's normalised e-mail is found. */
  lemma FoundWhenListed(dir: Directory, uid: Uid, query: string)
    requires uid in dir.order && HasEmail(dir, uid, Normalize(query))
    ensures LookupUserByEmail(dir, query).Some?
  {
    var k :| 0 <= k < |dir.order| && dir.order[k] == uid;
  }

  /**
   * The round trip across the two service files: any whitespace padding and
   * any letter-case variant of a registered e-mail finds an account.
   */
  lemma LookupFindsAnyVariant(dir: Directory, u: AuthUser, t: Time, w1: string, v: string, w2: string)
    requires Indexed(dir.docs, dir.order)
    requires AllSpace(w1) && AllSpace(w2)
    requires ToLower(v) == ToLower(Trim(OrEmpty(u.email)))
    ensures LookupUserByEmail(Users.Upsert(dir, u, t), w1 + v + w2).Some?
  {
    NormalizeIgnoresPaddingAndCase(OrEmpty(u.email), w1, v, w2);
    LookupFindsRegisteredEmail(dir, u, t, w1 + v + w2);
  }

  // ---------------------------------------------------------------------------
  // ensureConversationWithEmail

  /** The rows of the query "conversations whose `members` contain `uid`", in listing order. */
  function MemberRows(order: seq<ConvId>, docs: map<ConvId, Conversation>, uid: Uid): (rows: seq<ConvRow>)
    ensures forall row :: row in rows ==>
      row.id in order && row.id in docs && row.conv == docs[row.id] && uid in row.conv.members
    ensures forall id :: id in order && id in docs && uid in docs[id].members ==> ConvRow(id, docs[id]) in rows
  {
    if order == [] then
      []
    else
      var rest := MemberRows(order[1..], docs, uid);
      if order[0] in docs && uid in docs[order[0]].members then
        [ConvRow(order[0], docs[order[0]])] + rest
      else
        rest
  }

  /**
   * The member test of the scan as written: the member set contains `a` and
   * `b` and has two elements.
   */
  predicate IsPairAsWritten(members: seq<Uid>, a: Uid, b: Uid) {
    var s := set x | x in members;
    a in s && b in s && |s| == 2
  }

  /** The member test the scan means: the member set is exactly {a, b}. */
  predicate IsPair(members: seq<Uid>, a: Uid, b: Uid) {
    (set x | x in members) == {a, b}
  }

  /** For two different accounts the written test and the intended test agree. */
  lemma PairTestsAgreeForDistinct(members: seq<Uid>, a: Uid, b: Uid)
    requires a != b
    ensures IsPairAsWritten(members, a, b) <==> IsPair(members, a, b)
  {
    var s := set x | x in members;
    if IsPairAsWritten(members, a, b) {
      assert s == {a, b} + (s - {a, b});
      assert |s - {a, b}| == 0;
    }
  }

  /**
   * With one's own e-mail the written test accepts any two-party
   * conversation one is in: here the conversation with "bob" is taken for
   * the conversation of "me" with "me".
   */
  lemma OwnEmailMatchesOtherConversation()
    ensures IsPairAsWritten(["me", "bob"], "me", "me")
    ensures !IsPair(["me", "bob"], "me", "me")
  {
    var s := set x | x in ["me", "bob"];
    assert s == {"me", "bob"};
    assert "bob" !in {"me", "me"};
  }

  /**
   * ... and it never accepts the conversation it creates for that case
   * (members `[me, me]`), so each such call creates another one.
   */
  lemma SelfConversationNeverMatchesAsWritten(me: Uid)
    ensures !IsPairAsWritten([me, me], me, me)
    ensures IsPair([me, me], me, me)
  {
    var s := set x | x in [me, me];
    assert s == {me};
  }

  /** The intended test, member by member: the list holds `a` and `b` and nobody else. */
  lemma IsPairMeans(members: seq<Uid>, a: Uid, b: Uid)
    ensures IsPair(members, a, b) <==>
      a in members && b in members && forall x :: x in members ==> x == a || x == b
  {
    var s := set x | x in members;
    if IsPair(members, a, b) {
      assert a in s && b in s;
      forall x | x in members ensures x == a || x == b {
        assert x in s;
      }
    }
    if a in members && b in members && forall x :: x in members ==> x == a || x == b {
      assert s == {a, b};
    }
  }

  /** A two-element set holding `a` is `a` and one other element. */
  lemma OtherOfTwo(s: set<Uid>, a: Uid) returns (c: Uid)
    requires a in s && |s| == 2
    ensures c != a && s == {a, c}
  {
    var t := s - {a};
    assert s == t + {a};
    c :| c in t;
    assert |t - {c}| == 0;
    assert t - {c} == {};
    assert t == {c};
  }

  /**
   * The written test with `a == b` (one's own e-mail), member by member: the
   * list holds `a` and exactly one other account.
   */
  lemma OwnPairAsWrittenMeans(members: seq<Uid>, a: Uid)
    ensures IsPairAsWritten(members, a, a) <==>
      a in members && exists c :: c in members && c != a && forall x :: x in members ==> x == a || x == c
  {
    var s := set x | x in members;
    if IsPairAsWritten(members, a, a) {
      var c := OtherOfTwo(s, a);
      assert a in s && c in s;
      forall x | x in members ensures x == a || x == c {
        assert x in s;
      }
    }
    if a in members && exists c :: c in members && c != a && forall x :: x in members ==> x == a || x == c {
      var c :| c in members && c != a && forall x :: x in members ==> x == a || x == c;
      assert s == {a, c};
    }
  }

  /** Some row of `rows` is a conversation of exactly `a` and `b`. */
  ghost predicate HasPair(rows: seq<ConvRow>, a: Uid, b: Uid) {
    exists k :: 0 <= k < |rows| && IsPair(rows[k].conv.members, a, b)
  }

  /** `row` is the last row of `rows` that is a conversation of exactly `a` and `b`. */
  ghost predicate LastPairIn(rows: seq<ConvRow>, row: ConvRow, a: Uid, b: Uid) {
    exists k :: 0 <= k < |rows| && rows[k] == row && IsPair(rows[k].conv.members, a, b)
      && forall j :: k < j < |rows| ==> !IsPair(rows[j].conv.members, a, b)
  }

  /** The outcome of the scan: the last row of exactly `a` and `b`, if any. */
  function LastPair(rows: seq<ConvRow>, a: Uid, b: Uid): (r: Option<ConvRow>)
    ensures r.None? <==> !HasPair(rows, a, b)
    ensures r.Some? ==> LastPairIn(rows, r.value, a, b)
  {
    if rows == [] then
      None
    else if IsPair(rows[|rows| - 1].conv.members, a, b) then
      Some(rows[|rows| - 1])
    else
      var front := rows[..|rows| - 1];
      assert forall k :: 0 <= k < |front| ==> front[k] == rows[k];
      LastPair(front, a, b)
  }

  /** The outcome of the scan as written (line 41's test): the last row it accepts, if any. */
  function LastPairAsWritten(rows: seq<ConvRow>, a: Uid, b: Uid): (r: Option<ConvRow>)
    ensures r.None? <==> forall k :: 0 <= k < |rows| ==> !IsPairAsWritten(rows[k].conv.members, a, b)
    ensures r.Some? ==>
      exists k :: 0 <= k < |rows| && rows[k] == r.value && IsPairAsWritten(rows[k].conv.members, a, b)
        && forall j :: k < j < |rows| ==> !IsPairAsWritten(rows[j].conv.members, a, b)
  {
    if rows == [] then
      None
    else if IsPairAsWritten(rows[|rows| - 1].conv.members, a, b) then
      Some(rows[|rows| - 1])
    else
      var front := rows[..|rows| - 1];
      assert forall k :: 0 <= k < |front| ==> front[k] == rows[k];
      LastPairAsWritten(front, a, b)
  }

  /**
   * For two different accounts the written scan and the intended scan return
   * the same row: the model's scan is the source's whenever the e-mail found
   * is not the caller's own.
   */
  lemma {:induction false} LastPairAgreesForDistinct(rows: seq<ConvRow>, a: Uid, b: Uid)
    requires a != b
    ensures LastPairAsWritten(rows, a, b) == LastPair(rows, a, b)
  {
    if rows != [] {
      PairTestsAgreeForDistinct(rows[|rows| - 1].conv.members, a, b);
      LastPairAgreesForDistinct(rows[..|rows| - 1], a, b);
    }
  }

  /**
   * With one's own e-mail the written scan returns the conversation with
   * "bob", where the intended scan finds nothing (and a conversation of "me"
   * with "me" is created).
   */
  lemma OwnEmailScanReusesOtherConversation(c: Conversation)
    requires c.members == ["me", "bob"]
    ensures LastPairAsWritten([ConvRow("#", c)], "me", "me") == Some(ConvRow("#", c))
    ensures LastPair([ConvRow("#", c)], "me", "me").None?
  {
    OwnEmailMatchesOtherConversation();
  }

  /**
   * The scan over the query snapshot: every row of exactly `me` and `other`
   * overwrites `exist`, so the last one scanned is returned, and nothing
   * when there is none.
   */
  method FindExisting(rows: seq<ConvRow>, me: Uid, other: Uid) returns (exist: Option<ConvRow>)
    ensures exist == LastPair(rows, me, other)
  {
    exist := None;
    for i := 0 to |rows|
      invariant exist == LastPair(rows[..i], me, other)
    {
      assert rows[..i + 1][..i] == rows[..i];
      if IsPair(rows[i].conv.members, me, other) {
        exist := Some(rows[i]);
      }
    }
    assert rows[..|rows|] == rows;
  }

  /** The participant snapshot of the signed-in account. */
  function SelfInfo(me: AuthUser): (r: MemberInfo)
    ensures r.uid == me.uid && r.email == me.email
    ensures r.displayName == (if Truthy(me.displayName) then me.displayName else None)
    ensures r.photoURL == (if Truthy(me.photoURL) then me.photoURL else None)
  {
    MemberInfo(me.uid, me.email, OrNull(me.displayName), OrNull(me.photoURL))
  }

  /** The document written for a new conversation at server time `t`. */
  function NewConversation(me: AuthUser, other: MemberInfo, t: Time): (c: Conversation)
    ensures c.members == [me.uid, other.uid] && IsPair(c.members, me.uid, other.uid)
    ensures c.membersInfo.Keys == {me.uid, other.uid} && c.membersInfo[other.uid] == other
    ensures me.uid != other.uid ==> c.membersInfo[me.uid] == SelfInfo(me)
    ensures c.lastMessage.text == "" && c.lastMessage.from.None?
    ensures c.createdAt == c.updatedAt
    ensures c.createdAt == t && c.lastMessage.createdAt == t
  {
    var c := Conversation(
      members := [me.uid, other.uid],
      membersInfo := map[me.uid := SelfInfo(me)][other.uid := other],
      lastMessage := LastMessage("", None, t),
      createdAt := t,
      updatedAt := t);
    assert (set x | x in c.members) == {me.uid, other.uid};
    c
  }

  /**
   * The store after the conversation write (`addDoc` on the conversations
   * collection): `c` is added under the next automatic id and listed last,
   * at the next server time.
   */
  function WithConversation(st: DbState, c: Conversation): (t: DbState)
    ensures t.convs.docs == st.convs.docs[AutoId(st.nextId) := c]
    ensures t.convs.order == st.convs.order + [AutoId(st.nextId)]
    ensures t.users == st.users && t.logs == st.logs && t.clock == st.clock + 1 && t.nextId == st.nextId + 1
  {
    var id := AutoId(st.nextId);
    DbState(st.users, Registry(st.convs.docs[id := c], st.convs.order + [id]), st.logs, st.clock + 1, st.nextId + 1)
  }

  /** Adding a conversation stamped no later than the write keeps a consistent store consistent. */
  lemma WithConversationValid(st: DbState, c: Conversation)
    requires StateValid(st)
    ensures StateValid(WithConversation(st, c))
    ensures AutoId(st.nextId) !in st.convs.docs
  {
    var id := AutoId(st.nextId);
    LogsValidLater(st.logs, st.clock, st.clock + 1);
    RegistryValidLater(st.convs, st.nextId, st.nextId + 1);
    AddKeepsRegistryValid(st.convs, st.nextId + 1, id, c);
  }

  /** The conversation write of a store holding `db`. */
  method AddConversation(db: Db, c: Conversation) returns (id: ConvId)
    modifies db
    ensures id == AutoId(old(db.nextId))
    ensures db.State() == WithConversation(old(db.State()), c)
  {
    var t := db.Tick();
    id := db.NewId();
    db.convs := Registry(db.convs.docs[id := c], db.convs.order + [id]);
  }

  /**
   * What `ensureConversationWithEmail` does. Without an account, with an
   * unknown e-mail or on a failed store call it fails. When the snapshot of
   * the account's conversations holds one of exactly the two accounts it
   * returns the last one scanned. Otherwise it adds one new conversation
   * under a fresh id at the next server time.
   */
  function Ensured(before: DbState, current: Option<AuthUser>, email: string, net: Net): (s: Step<ConvRow>)
    ensures s.result.Err? ==> s.after == before
    ensures s.result == Err(NotSignedIn) <==> current.None?
    ensures current.Some? && Succeeds(net, 1) ==>
      (s.result == Err(UserNotFound) <==> LookupUserByEmail(before.users, email).None?)
    ensures s.after.users == before.users && s.after.logs == before.logs
  {
    if current.None? then
      Step(Err(NotSignedIn), before)
    else if !Succeeds(net, 1) then
      Step(Err(StoreFailure), before)
    else
      match LookupUserByEmail(before.users, email)
      case None => Step(Err(UserNotFound), before)
      case Some(other) =>
        if !Succeeds(net, 2) then
          Step(Err(StoreFailure), before)
        else
          match LastPair(MemberRows(before.convs.order, before.convs.docs, current.value.uid), current.value.uid, other.uid)
          case Some(row) => Step(Ok(row), before)
          case None =>
            if !Succeeds(net, 3) then
              Step(Err(StoreFailure), before)
            else
              var c := NewConversation(current.value, other, before.clock + 1);
              Step(Ok(ConvRow(AutoId(before.nextId), c)), WithConversation(before, c))
  }

  /**
   * A successful call returns a conversation of exactly the signed-in
   * account and the account found by the e-mail. If the account already had
   * one, it is the last one listed and nothing is written; otherwise exactly
   * one conversation is added under an id no conversation had, and every
   * existing conversation is left as it was.
   */
  lemma EnsuredFindsOrCreates(before: DbState, current: Option<AuthUser>, email: string, net: Net)
    requires StateValid(before)
    requires Ensured(before, current, email, net).result.Ok?
    ensures var s := Ensured(before, current, email, net);
      var me := current.value.uid;
      var other := LookupUserByEmail(before.users, email).value;
      var rows := MemberRows(before.convs.order, before.convs.docs, me);
      && IsPair(s.result.value.conv.members, me, other.uid)
      && (HasPair(rows, me, other.uid) ==> s.after == before && LastPairIn(rows, s.result.value, me, other.uid))
      && (!HasPair(rows, me, other.uid) ==>
            && s.result.value.id !in before.convs.docs
            && s.result.value.conv == NewConversation(current.value, other, before.clock + 1)
            && s.after.convs.docs == before.convs.docs[s.result.value.id := s.result.value.conv]
            && s.after.convs.order == before.convs.order + [s.result.value.id])
  {
    var other := LookupUserByEmail(before.users, email).value;
    var rows := MemberRows(before.convs.order, before.convs.docs, current.value.uid);
    if HasPair(rows, current.value.uid, other.uid) {
      EnsuredReuses(before, current, email, net);
    } else {
      EnsuredCreates(before, current, email, net);
      WithConversationValid(before, NewConversation(current.value, other, before.clock + 1));
    }
  }

  /**
   * A successful call returns a conversation that the store holds under the
   * returned id, unchanged, with the signed-in account among its members.
   */
  lemma EnsuredResultStored(before: DbState, current: Option<AuthUser>, email: string, net: Net)
    requires Ensured(before, current, email, net).result.Ok?
    ensures var s := Ensured(before, current, email, net);
      && s.result.value.id in s.after.convs.docs
      && s.after.convs.docs[s.result.value.id] == s.result.value.conv
      && current.value.uid in s.result.value.conv.members
  {
    var me := current.value.uid;
    var other := LookupUserByEmail(before.users, email).value;
    var rows := MemberRows(before.convs.order, before.convs.docs, me);
    var found := LastPair(rows, me, other.uid);
    if found.Some? {
      EnsuredReuses(before, current, email, net);
      var k :| 0 <= k < |rows| && rows[k] == found.value && IsPair(rows[k].conv.members, me, other.uid);
      assert rows[k] in rows;
    } else {
      EnsuredCreates(before, current, email, net);
    }
  }

  /** The reusing branch of `Ensured`, spelled out. */
  lemma EnsuredReuses(before: DbState, current: Option<AuthUser>, email: string, net: Net)
    requires current.Some? && Succeeds(net, 2)
    requires LookupUserByEmail(before.users, email).Some?
    requires LastPair(MemberRows(before.convs.order, before.convs.docs, current.value.uid),
                      current.value.uid, LookupUserByEmail(before.users, email).value.uid).Some?
    ensures Ensured(before, current, email, net) ==
      Step(Ok(LastPair(MemberRows(before.convs.order, before.convs.docs, current.value.uid),
                       current.value.uid, LookupUserByEmail(before.users, email).value.uid).value), before)
  {
  }

  /** The creating branch of `Ensured`, spelled out. */
  lemma EnsuredCreates(before: DbState, current: Option<AuthUser>, email: string, net: Net)
    requires current.Some? && Succeeds(net, 3)
    requires LookupUserByEmail(before.users, email).Some?
    requires LastPair(MemberRows(before.convs.order, before.convs.docs, current.value.uid),
                      current.value.uid, LookupUserByEmail(before.users, email).value.uid).None?
    ensures var c := NewConversation(current.value, LookupUserByEmail(before.users, email).value, before.clock + 1);
      Ensured(before, current, email, net) == Step(Ok(ConvRow(AutoId(before.nextId), c)), WithConversation(before, c))
  {
  }

  /** Adding a conversation under an unused, handed-out id keeps the registry valid. */
  lemma AddKeepsRegistryValid(reg: Registry, nextId: nat, id: ConvId, c: Conversation)
    requires RegistryValid(reg, nextId)
    requires id !in reg.docs && 0 < |id| <= nextId
    ensures RegistryValid(Registry(reg.docs[id := c], reg.order + [id]), nextId)
  {
  }

  /** The operation keeps a consistent store consistent. */
  lemma EnsuredKeepsValid(before: DbState, current: Option<AuthUser>, email: string, net: Net)
    requires StateValid(before)
    ensures StateValid(Ensured(before, current, email, net).after)
  {
    var s := Ensured(before, current, email, net);
    if s.after != before {
      WithConversationValid(before, s.result.value.conv);
    }
  }

  /** The query rows over a listing extended by one id: the old rows, then that id's row if it matches. */
  lemma {:induction false} MemberRowsAppend(order: seq<ConvId>, id: ConvId, docs: map<ConvId, Conversation>, uid: Uid)
    ensures MemberRows(order + [id], docs, uid) ==
      MemberRows(order, docs, uid) + (if id in docs && uid in docs[id].members then [ConvRow(id, docs[id])] else [])
  {
    if order == [] {
      assert order + [id] == [id];
    } else {
      assert (order + [id])[1..] == order[1..] + [id];
      MemberRowsAppend(order[1..], id, docs, uid);
    }
  }

  /** Rows of ids missing from a map are not affected by adding one entry under a fresh key. */
  lemma {:induction false} MemberRowsFreshKey(order: seq<ConvId>, docs: map<ConvId, Conversation>, id: ConvId, c: Conversation, uid: Uid)
    requires id !in order
    ensures MemberRows(order, docs[id := c], uid) == MemberRows(order, docs, uid)
  {
    if order != [] {
      MemberRowsFreshKey(order[1..], docs, id, c, uid);
    }
  }

  /**
   * Calling again, sequentially, changes nothing: a successful call followed
   * by a second one for the same account and e-mail returns the same
   * conversation and writes nothing, so the pair gets one conversation.
   */
  lemma EnsuredTwice(before: DbState, current: Option<AuthUser>, email: string, net1: Net, net2: Net)
    requires StateValid(before)
    requires Ensured(before, current, email, net1).result.Ok?
    requires Succeeds(net2, 2)
    ensures var s1 := Ensured(before, current, email, net1);
      Ensured(s1.after, current, email, net2) == Step(s1.result, s1.after)
  {
    var s1 := Ensured(before, current, email, net1);
    var me := current.value.uid;
    var other := LookupUserByEmail(before.users, email).value;
    var rows := MemberRows(before.convs.order, before.convs.docs, me);
    EnsuredFindsOrCreates(before, current, email, net1);
    if !HasPair(rows, me, other.uid) {
      var row := s1.result.value;
      MemberRowsAppend(before.convs.order, row.id, s1.after.convs.docs, me);
      assert row.id !in before.convs.order;
      MemberRowsFreshKey(before.convs.order, before.convs.docs, row.id, row.conv, me);
      var rows2 := MemberRows(s1.after.convs.order, s1.after.convs.docs, me);
      assert rows2 == rows + [row];
      assert rows2[|rows2| - 1] == row;
    }
  }

  /**
   * Looks the e-mail up (store call 1), lists the conversations containing
   * the signed-in account (store call 2), scans them, and adds a new
   * conversation (store call 3) when the scan finds none.
   */
  method EnsureConversationWithEmail(db: Db, current: Option<AuthUser>, email: string, net: Net)
    returns (r: Result<ConvRow>)
    modifies db
    ensures Step(r, db.State()) == Ensured(old(db.State()), current, email, net)
  {
    if current.None? {
      return Err(NotSignedIn);
    }
    var me := current.value;
    if !Succeeds(net, 1) {
      return Err(StoreFailure);
    }
    var other := LookupUserByEmail(db.users, email);
    if other.None? {
      return Err(UserNotFound);
    }
    if !Succeeds(net, 2) {
      return Err(StoreFailure);
    }
    var rows := MemberRows(db.convs.order, db.convs.docs, me.uid);
    var exist := FindExisting(rows, me.uid, other.value.uid);
    if exist.Some? {
      return Ok(exist.value);
    }
    if !Succeeds(net, 3) {
      return Err(StoreFailure);
    }
    var payload := NewConversation(me, other.value, db.clock + 1);
    EnsuredCreates(db.State(), current, email, net);
    var id := AddConversation(db, payload);
    r := Ok(ConvRow(id, payload));
  }

  // ---------------------------------------------------------------------------
  // sendMessage

  /** The preview keeps the first 200 characters of the body. */
  const PreviewLength: nat := 200

  /**
   * The conversation after its preview update: only `lastMessage` and
   * `updatedAt` change.
   */
  function Previewed(c: Conversation, from: Uid, body: string, t: Time): (p: Conversation)
    ensures p.members == c.members && p.membersInfo == c.membersInfo && p.createdAt == c.createdAt
    ensures p.lastMessage.text <= body
    ensures |p.lastMessage.text| == if |body| < PreviewLength then |body| else PreviewLength
    ensures p.lastMessage.from == Some(from) && p.lastMessage.createdAt == t && p.updatedAt == t
  {
    c.(lastMessage := LastMessage(Prefix(body, PreviewLength), Some(from), t), updatedAt := t)
  }

  /** The messages of conversation `cid`, in commit order (none for an unknown id). */
  function LogOf(logs: map<ConvId, seq<MsgRow>>, cid: ConvId): seq<MsgRow> {
    if cid in logs then logs[cid] else []
  }

  /**
   * The store after the message write (`addDoc` on the messages
   * sub-collection): one message {from, body} at the next server time and
   * under the next automatic id is appended to the log of `cid`.
   */
  function Appended(st: DbState, cid: ConvId, from: Uid, body: string): (t: DbState)
    ensures LogOf(t.logs, cid) == LogOf(st.logs, cid) + [MsgRow(AutoId(st.nextId), Message(from, body, st.clock + 1))]
    ensures forall c :: c != cid ==> LogOf(t.logs, c) == LogOf(st.logs, c)
    ensures t.users == st.users && t.convs == st.convs && t.clock == st.clock + 1 && t.nextId == st.nextId + 1
  {
    var row := MsgRow(AutoId(st.nextId), Message(from, body, st.clock + 1));
    DbState(st.users, st.convs, st.logs[cid := LogOf(st.logs, cid) + [row]], st.clock + 1, st.nextId + 1)
  }

  /**
   * The store after the preview write (`updateDoc` on the conversation):
   * only `lastMessage` and `updatedAt` of `cid` change, to the next server time.
   */
  function WithPreview(st: DbState, cid: ConvId, from: Uid, body: string): (t: DbState)
    requires cid in st.convs.docs
    ensures t.convs.docs == st.convs.docs[cid := Previewed(st.convs.docs[cid], from, body, st.clock + 1)]
    ensures t.convs.order == st.convs.order
    ensures t.users == st.users && t.logs == st.logs && t.clock == st.clock + 1 && t.nextId == st.nextId
  {
    var conv := Previewed(st.convs.docs[cid], from, body, st.clock + 1);
    DbState(st.users, Registry(st.convs.docs[cid := conv], st.convs.order), st.logs, st.clock + 1, st.nextId)
  }

  /**
   * What `sendMessage` does. Without an account it fails; a body that is
   * blank after trimming changes nothing. Otherwise the first write appends
   * one message {from me, trimmed body} to the conversation's log at the
   * next server time; the second write sets only `lastMessage` and
   * `updatedAt` of that conversation. A failure before the first write
   * changes nothing; a failure of the second (or a missing conversation)
   * leaves the message in the log and the conversation as it was.
   */
  function Sent(before: DbState, current: Option<AuthUser>, cid: ConvId, text: string, net: Net): (s: Step<Option<MsgId>>)
    ensures current.None? ==> s == Step(Err(NotSignedIn), before)
    ensures current.Some? && Trim(text) == [] ==> s == Step(Ok(None), before)
    ensures current.Some? && Trim(text) != [] && !Succeeds(net, 1) ==> s == Step(Err(StoreFailure), before)
    ensures s.result.Ok? && s.result.value.Some? ==> s.result.value.value == AutoId(before.nextId)
    ensures s.after.users == before.users
  {
    if current.None? then
      Step(Err(NotSignedIn), before)
    else if Trim(text) == [] then
      Step(Ok(None), before)
    else if !Succeeds(net, 1) then
      Step(Err(StoreFailure), before)
    else
      var me := current.value.uid;
      var body := Trim(text);
      var appended := Appended(before, cid, me, body);
      if !Succeeds(net, 2) then
        Step(Err(StoreFailure), appended)
      else if cid !in before.convs.docs then
        Step(Err(NoSuchDocument), appended)
      else
        Step(Ok(Some(AutoId(before.nextId))), WithPreview(appended, cid, me, body))
  }

  /**
   * A send that gets past its first store call appends exactly one message,
   * {from me, trimmed text}, to the end of that conversation's log and
   * changes no other log; the conversation's preview is updated only when
   * the send succeeds, and no other conversation changes.
   */
  lemma SentAppendsOneMessage(before: DbState, current: Option<AuthUser>, cid: ConvId, text: string, net: Net)
    requires current.Some? && Trim(text) != [] && Succeeds(net, 1)
    ensures var s := Sent(before, current, cid, text, net);
      && LogOf(s.after.logs, cid) == LogOf(before.logs, cid) + [MsgRow(AutoId(before.nextId), Message(current.value.uid, Trim(text), before.clock + 1))]
      && (forall c :: c != cid ==> LogOf(s.after.logs, c) == LogOf(before.logs, c))
      && (forall c :: c in before.convs.docs && c != cid ==> c in s.after.convs.docs && s.after.convs.docs[c] == before.convs.docs[c])
      && s.after.convs.order == before.convs.order
      && (s.result.Ok? <==> Succeeds(net, 2) && cid in before.convs.docs)
      && (s.result.Ok? ==> s.after.convs.docs == before.convs.docs[cid := Previewed(before.convs.docs[cid], current.value.uid, Trim(text), before.clock + 2)])
      && (s.result.Err? ==> s.after.convs == before.convs)
  {
  }

  /** A message committed after everything in a valid log keeps the log valid. */
  lemma AppendKeepsLogValid(log: seq<MsgRow>, row: MsgRow, clock: Time)
    requires LogValid(log, clock) && clock < row.msg.createdAt
    ensures LogValid(log + [row], row.msg.createdAt)
  {
  }

  /** Appending a later message to one conversation's log keeps every log valid. */
  lemma AppendKeepsLogsValid(logs: map<ConvId, seq<MsgRow>>, cid: ConvId, row: MsgRow, clock: Time)
    requires LogsValid(logs, clock) && clock < row.msg.createdAt
    ensures LogsValid(logs[cid := LogOf(logs, cid) + [row]], row.msg.createdAt)
  {
    var after := logs[cid := LogOf(logs, cid) + [row]];
    assert cid in logs ==> LogValid(logs[cid], clock);
    AppendKeepsLogValid(LogOf(logs, cid), row, clock);
    forall c | c in after ensures LogValid(after[c], row.msg.createdAt) {
      if c != cid {
        assert LogValid(logs[c], clock);
      }
    }
  }

  /** A preview update stamped no later than the clock keeps the registry valid. */
  lemma PreviewKeepsRegistryValid(reg: Registry, nextId: nat, cid: ConvId, c: Conversation)
    requires RegistryValid(reg, nextId) && cid in reg.docs
    ensures RegistryValid(Registry(reg.docs[cid := c], reg.order), nextId)
  {
  }

  lemma AppendedValid(st: DbState, cid: ConvId, from: Uid, body: string)
    requires StateValid(st)
    ensures StateValid(Appended(st, cid, from, body))
  {
    var row := MsgRow(AutoId(st.nextId), Message(from, body, st.clock + 1));
    AppendKeepsLogsValid(st.logs, cid, row, st.clock);
    RegistryValidLater(st.convs, st.nextId, st.nextId + 1);
  }

  lemma WithPreviewValid(st: DbState, cid: ConvId, from: Uid, body: string)
    requires StateValid(st) && cid in st.convs.docs
    ensures StateValid(WithPreview(st, cid, from, body))
  {
    LogsValidLater(st.logs, st.clock, st.clock + 1);
    PreviewKeepsRegistryValid(st.convs, st.nextId, cid, Previewed(st.convs.docs[cid], from, body, st.clock + 1));
  }

  /** The operation keeps a consistent store consistent. */
  lemma SentKeepsValid(before: DbState, current: Option<AuthUser>, cid: ConvId, text: string, net: Net)
    requires StateValid(before)
    ensures StateValid(Sent(before, current, cid, text, net).after)
  {
    if current.Some? && Trim(text) != [] && Succeeds(net, 1) {
      var appended := Appended(before, cid, current.value.uid, Trim(text));
      AppendedValid(before, cid, current.value.uid, Trim(text));
      if Succeeds(net, 2) && cid in before.convs.docs {
        WithPreviewValid(appended, cid, current.value.uid, Trim(text));
      }
    }
  }

  /** The message write of a store holding `db`. */
  method AppendMessage(db: Db, cid: ConvId, from: Uid, body: string) returns (mid: MsgId)
    modifies db
    ensures mid == AutoId(old(db.nextId))
    ensures db.State() == Appended(old(db.State()), cid, from, body)
  {
    var row := MsgRow(AutoId(db.nextId), Message(from, body, db.clock + 1));
    var t := db.Tick();
    mid := db.NewId();
    db.logs := db.logs[cid := LogOf(db.logs, cid) + [row]];
  }

  /** The preview write of a store holding `db`. */
  method UpdatePreview(db: Db, cid: ConvId, from: Uid, body: string)
    requires cid in db.convs.docs
    modifies db
    ensures db.State() == WithPreview(old(db.State()), cid, from, body)
  {
    var t := db.Tick();
    var reg := db.convs;
    db.convs := Registry(reg.docs[cid := Previewed(reg.docs[cid], from, body, t)], reg.order);
  }

  /**
   * Trims the text; unless it is blank, appends the message (store call 1)
   * and then updates the conversation's preview (store call 2). Returns the
   * new message's id.
   */
  method SendMessage(db: Db, current: Option<AuthUser>, cid: ConvId, text: string, net: Net)
    returns (r: Result<Option<MsgId>>)
    modifies db
    ensures Step(r, db.State()) == Sent(old(db.State()), current, cid, text, net)
  {
    if current.None? {
      return Err(NotSignedIn);
    }
    var me := current.value;
    var body := Trim(text);
    if body == [] {
      return Ok(None);
    }
    if !Succeeds(net, 1) {
      return Err(StoreFailure);
    }
    var mid := AppendMessage(db, cid, me.uid, body);
    if !Succeeds(net, 2) {
      return Err(StoreFailure);
    }
    if cid !in db.convs.docs {
      return Err(NoSuchDocument);
    }
    UpdatePreview(db, cid, me.uid, body);
    r := Ok(Some(mid));
  }

  // ---------------------------------------------------------------------------
  // subscribeConversations / subscribeMessages: what each snapshot contains

  function UpdatedDescending(row: ConvRow): int {
    -(row.conv.updatedAt as int)
  }

  function CreatedAscending(row: MsgRow): int {
    row.msg.createdAt
  }

  /** The conversation list of `uid`: the rows it is a member of, by `updatedAt`, latest first. */
  function ConversationsView(reg: Registry, uid: Uid): (r: seq<ConvRow>)
    ensures |r| == |MemberRows(reg.order, reg.docs, uid)|
  {
    Sort(MemberRows(reg.order, reg.docs, uid), UpdatedDescending)
  }

  /**
   * The conversation list holds exactly the listed conversations whose
   * `members` contain `uid`, each as stored, most recently updated first.
   */
  lemma ConversationsViewLists(reg: Registry, uid: Uid)
    ensures var rows := ConversationsView(reg, uid);
      && multiset(rows) == multiset(MemberRows(reg.order, reg.docs, uid))
      && (forall i, j :: 0 <= i < j < |rows| ==> rows[i].conv.updatedAt >= rows[j].conv.updatedAt)
      && (forall row :: row in rows ==> row.id in reg.docs && row.conv == reg.docs[row.id] && uid in row.conv.members)
      && (forall id :: id in reg.order && id in reg.docs && uid in reg.docs[id].members ==> ConvRow(id, reg.docs[id]) in rows)
  {
    var listed := MemberRows(reg.order, reg.docs, uid);
    var rows := ConversationsView(reg, uid);
    assert forall row :: row in rows <==> row in listed by {
      forall row ensures row in rows <==> row in listed {
        assert row in rows <==> row in multiset(rows);
        assert row in listed <==> row in multiset(listed);
      }
    }
    assert forall i, j :: 0 <= i < j < |rows| ==> UpdatedDescending(rows[i]) <= UpdatedDescending(rows[j]);
  }

  /**
   * `subscribeConversations` refuses to start without a signed-in account;
   * otherwise each snapshot is the account's conversation view.
   */
  function SubscribeConversations(reg: Registry, current: Option<AuthUser>): (r: Result<seq<ConvRow>>)
    ensures current.None? <==> r == Err(NotSignedIn)
    ensures current.Some? ==> r.Ok? && forall row :: row in r.value ==> current.value.uid in row.conv.members
    ensures current.Some? ==> r == Ok(ConversationsView(reg, current.value.uid))
  {
    if current.None? then
      Err(NotSignedIn)
    else
      ConversationsViewLists(reg, current.value.uid);
      Ok(ConversationsView(reg, current.value.uid))
  }

  /** The message list of a conversation: its messages by `createdAt`, oldest first. */
  function MessagesView(logs: map<ConvId, seq<MsgRow>>, cid: ConvId): (r: seq<MsgRow>)
    ensures |r| == |LogOf(logs, cid)|
  {
    Sort(LogOf(logs, cid), CreatedAscending)
  }

  /** The message list holds exactly the conversation's messages, oldest first. */
  lemma MessagesViewLists(logs: map<ConvId, seq<MsgRow>>, cid: ConvId)
    ensures multiset(MessagesView(logs, cid)) == multiset(LogOf(logs, cid))
    ensures var rows := MessagesView(logs, cid);
      forall i, j :: 0 <= i < j < |rows| ==> rows[i].msg.createdAt <= rows[j].msg.createdAt
  {
    var rows := MessagesView(logs, cid);
    assert forall i, j :: 0 <= i < j < |rows| ==> CreatedAscending(rows[i]) <= CreatedAscending(rows[j]);
  }

  /** In a valid store the message list is the log itself, in commit order. */
  lemma {:induction false} MessagesViewIsLog(logs: map<ConvId, seq<MsgRow>>, cid: ConvId, clock: Time)
    requires LogsValid(logs, clock)
    ensures MessagesView(logs, cid) == LogOf(logs, cid)
  {
    var log := LogOf(logs, cid);
    assert cid in logs ==> LogValid(logs[cid], clock);
    assert Ascending(log, CreatedAscending);
    SortOfAscending(log, CreatedAscending);
  }

  /**
   * Sending m1 and then m2 shows m1 before m2: a message committed after a
   * valid log appears after every earlier message of its conversation.
   */
  lemma {:induction false} NewMessageListedLast(logs: map<ConvId, seq<MsgRow>>, cid: ConvId, row: MsgRow, clock: Time)
    requires LogsValid(logs, clock) && clock < row.msg.createdAt
    ensures MessagesView(logs[cid := LogOf(logs, cid) + [row]], cid) == LogOf(logs, cid) + [row]
  {
    var after := logs[cid := LogOf(logs, cid) + [row]];
    AppendKeepsLogsValid(logs, cid, row, clock);
    MessagesViewIsLog(after, cid, row.msg.createdAt);
  }
}

=== FILE: page.dfy ===
/**
 * The messages page as a session controller: the state it keeps, the
 * transitions its auth listener, subscription callbacks and form handlers
 * make, and the values it derives for display (the selected conversation,
 * its other members, the peer and the labels). Rendering is not modelled.
 *
 * Every handler runs to completion before the next event; the effects that
 * React re-runs after a state change are applied at the end of each handler
 * by `RunEffects`.
 */
module Page {
  import opened Text
  import opened Store
  import Users
  import opened Messages

  // ---------------------------------------------------------------------------
  // Derived values

  /** `convos.find(c => c.id === cid) || null`: the first listed row with id `cid`. */
  function CurrentOf(convos: seq<ConvRow>, cid: ConvId): (r: Option<ConvRow>)
    ensures r.None? <==> forall k :: 0 <= k < |convos| ==> convos[k].id != cid
    ensures r.Some? ==>
      exists k :: 0 <= k < |convos| && convos[k] == r.value && r.value.id == cid
        && forall j :: 0 <= j < k ==> convos[j].id != cid
  {
    if convos == [] then
      None
    else if convos[0].id == cid then
      Some(convos[0])
    else
      var r := CurrentOf(convos[1..], cid);
      assert forall k :: 1 <= k < |convos| ==> convos[k] == convos[1..][k - 1];
      r
  }

  /** `members.filter(x => x !== uid)`: the members other than `uid`, in order. */
  function Without(members: seq<Uid>, uid: Uid): (r: seq<Uid>)
    ensures |r| <= |members|
    ensures forall x :: x in r <==> x in members && x != uid
    ensures r != [] ==>
      exists k :: 0 <= k < |members| && members[k] == r[0]
        && forall j :: 0 <= j < k ==> members[j] == uid
  {
    if members == [] then
      []
    else if members[0] == uid then
      var r := Without(members[1..], uid);
      assert forall k :: 1 <= k < |members| ==> members[k] == members[1..][k - 1];
      r
    else
      [members[0]] + Without(members[1..], uid)
  }

  /** The filter drops every occurrence of `uid` and keeps every other member as often as it occurs. */
  lemma {:induction false} WithoutCounts(members: seq<Uid>, uid: Uid)
    ensures multiset(Without(members, uid)) == multiset(members)[uid := 0]
  {
    if members != [] {
      var rest := members[1..];
      WithoutCounts(rest, uid);
      assert members == [members[0]] + rest;
      assert multiset(members) == multiset{members[0]} + multiset(rest);
      if members[0] != uid {
        assert Without(members, uid) == [members[0]] + Without(rest, uid);
      }
    }
  }

  /**
   * The filter keeps the order of the members: filtering a concatenation is
   * concatenating the filtered parts.
   */
  lemma {:induction false} WithoutKeepsOrder(m1: seq<Uid>, m2: seq<Uid>, uid: Uid)
    ensures Without(m1 + m2, uid) == Without(m1, uid) + Without(m2, uid)
  {
    if m1 != [] {
      assert (m1 + m2)[0] == m1[0];
      assert (m1 + m2)[1..] == m1[1..] + m2;
      WithoutKeepsOrder(m1[1..], m2, uid);
    } else {
      assert m1 + m2 == m2;
    }
  }

  /** `others`: empty without a selected conversation or an account, else its members other than me. */
  function OthersOf(current: Option<ConvRow>, me: Option<AuthUser>): (r: seq<Uid>)
    ensures current.None? || me.None? ==> r == []
    ensures current.Some? && me.Some? ==>
      forall x :: x in r <==> x in current.value.conv.members && x != me.value.uid
  {
    if current.None? || me.None? then [] else Without(current.value.conv.members, me.value.uid)
  }

  /** `other`: the participant snapshot of the first other member, or null. */
  function OtherOf(current: Option<ConvRow>, others: seq<Uid>): (r: Option<MemberInfo>)
    ensures current.None? || others == [] ==> r.None?
    ensures current.Some? && others != [] && others[0] in current.value.conv.membersInfo ==>
      r == Some(current.value.conv.membersInfo[others[0]])
    ensures current.Some? && others != [] && others[0] !in current.value.conv.membersInfo ==> r.None?
    ensures r.Some? ==>
      others[0] in current.value.conv.membersInfo && r.value == current.value.conv.membersInfo[others[0]]
  {
    if current.None? || others == [] then
      None
    else if others[0] in current.value.conv.membersInfo then
      Some(current.value.conv.membersInfo[others[0]])
    else
      None
  }

  /**
   * The peer shown for the selected conversation is the snapshot of its first
   * member that is not me; there is none without a selection, without an
   * account, or when every member is me.
   */
  lemma {:induction false} PeerIsFirstOtherMember(convos: seq<ConvRow>, cid: ConvId, me: Option<AuthUser>)
    ensures var cur := CurrentOf(convos, cid);
      var peer := OtherOf(cur, OthersOf(cur, me));
      peer.Some? ==>
        && cur.Some? && me.Some? && cur.value.id == cid
        && exists k :: 0 <= k < |cur.value.conv.members|
             && cur.value.conv.members[k] != me.value.uid
             && (forall j :: 0 <= j < k ==> cur.value.conv.members[j] == me.value.uid)
             && cur.value.conv.members[k] in cur.value.conv.membersInfo
             && peer.value == cur.value.conv.membersInfo[cur.value.conv.members[k]]
    ensures var cur := CurrentOf(convos, cid);
      cur.None? || me.None? || (forall x :: x in cur.value.conv.members ==> x == me.value.uid) ==>
        OtherOf(cur, OthersOf(cur, me)).None?
  {
    var cur := CurrentOf(convos, cid);
    var others := OthersOf(cur, me);
    if cur.Some? && me.Some? {
      if others != [] {
        assert others[0] in others;
        var members := cur.value.conv.members;
        var k :| 0 <= k < |members| && members[k] == others[0]
          && forall j :: 0 <= j < k ==> members[j] == me.value.uid;
        assert members[k] != me.value.uid;
      }
    }
  }

  /**
   * Conversely, with a selection and an account, the snapshot of the first
   * member that is not me is the peer, and without such a snapshot there is
   * no peer.
   */
  lemma FirstOtherMemberIsPeer(convos: seq<ConvRow>, cid: ConvId, me: Option<AuthUser>, k: nat)
    requires CurrentOf(convos, cid).Some? && me.Some?
    requires var members := CurrentOf(convos, cid).value.conv.members;
      && k < |members| && members[k] != me.value.uid
      && forall j :: 0 <= j < k ==> members[j] == me.value.uid
    ensures var cur := CurrentOf(convos, cid);
      var info := cur.value.conv.membersInfo;
      var first := cur.value.conv.members[k];
      && (first in info ==> OtherOf(cur, OthersOf(cur, me)) == Some(info[first]))
      && (first !in info ==> OtherOf(cur, OthersOf(cur, me)).None?)
  {
    var cur := CurrentOf(convos, cid);
    var members := cur.value.conv.members;
    var others := OthersOf(cur, me);
    assert members[k] in others;
    var k' :| 0 <= k' < |members| && members[k'] == others[0]
      && forall j :: 0 <= j < k' ==> members[j] == me.value.uid;
    assert others[0] in others;
  }

  /** `o?.displayName || o?.email || fallback` */
  function Label(o: Option<MemberInfo>, fallback: string): (r: string)
    ensures o.Some? && Truthy(o.value.displayName) ==> r == o.value.displayName.value
    ensures o.Some? && !Truthy(o.value.displayName) && Truthy(o.value.email) ==> r == o.value.email.value
    ensures o.None? || (!Truthy(o.value.displayName) && !Truthy(o.value.email)) ==> r == fallback
    ensures fallback != "" ==> r != ""
  {
    if o.Some? && Truthy(o.value.displayName) then o.value.displayName.value
    else if o.Some? && Truthy(o.value.email) then o.value.email.value
    else fallback
  }

  /**
   * The sidebar label of a listed conversation: the first member other than
   * me (every member when no account is known), its snapshot's display name,
   * else e-mail, else "Unknown".
   */
  function ConvLabel(c: ConvRow, me: Option<AuthUser>): (r: string)
    ensures r != ""
  {
    var others := if me.Some? then Without(c.conv.members, me.value.uid) else c.conv.members;
    var o := if others != [] && others[0] in c.conv.membersInfo then Some(c.conv.membersInfo[others[0]]) else None;
    Label(o, "Unknown")
  }

  /**
   * The sidebar and the chat header agree: for the selected conversation the
   * sidebar label names the same peer the header derives.
   */
  lemma SidebarLabelNamesPeer(convos: seq<ConvRow>, cid: ConvId, me: Option<AuthUser>)
    requires me.Some? && CurrentOf(convos, cid).Some?
    ensures var cur := CurrentOf(convos, cid);
      ConvLabel(cur.value, me) == Label(OtherOf(cur, OthersOf(cur, me)), "Unknown")
  {
  }

  // ---------------------------------------------------------------------------
  // Auto-selection on a conversation-list update

  /**
   * The update as written: the callback tests the selection `captured` when
   * the subscription started (it is not re-subscribed when the selection
   * changes), and writes the first row over the current selection `cid`.
   */
  function AutoSelectAsWritten(captured: ConvId, cid: ConvId, rows: seq<ConvRow>): (r: ConvId)
    ensures captured == "" && rows != [] ==> r == rows[0].id
    ensures captured != "" || rows == [] ==> r == cid
  {
    if captured == "" && rows != [] then rows[0].id else cid
  }

  /** The selection after an update: the first row only when nothing is selected. */
  function AutoSelect(cid: ConvId, rows: seq<ConvRow>): (r: ConvId)
    ensures cid != "" ==> r == cid
    ensures cid == "" && rows != [] ==> r == rows[0].id
    ensures r == "" <==> cid == "" && (rows == [] || rows[0].id == "")
  {
    if cid == "" && rows != [] then rows[0].id else cid
  }

  /**
   * The written update overwrites a selection made after the subscription
   * started: with nothing selected at subscription time, "b" selected since,
   * and a list whose first row is "a", it selects "a"; the intended update
   * keeps "b".
   */
  lemma StaleSelectionOverwritten(c1: Conversation, c2: Conversation)
    ensures AutoSelectAsWritten("", "b", [ConvRow("a", c1), ConvRow("b", c2)]) == "a"
    ensures AutoSelect("b", [ConvRow("a", c1), ConvRow("b", c2)]) == "b"
  {
  }

  /** While the selection is the one captured, the two updates agree. */
  lemma AutoSelectAgreesWhileUnchanged(cid: ConvId, rows: seq<ConvRow>)
    ensures AutoSelectAsWritten(cid, cid, rows) == AutoSelect(cid, rows)
  {
  }

  // ---------------------------------------------------------------------------
  // The controller

  class MessagesPage {
    /** The signed-in account, as the auth listener last reported it. */
    var me: Option<AuthUser>
    /** Set once the account's own user document has been ensured. */
    var ready: bool
    var convos: seq<ConvRow>
    /** The selected conversation id; "" when none. */
    var cid: ConvId
    var msgs: seq<MsgRow>
    var input: string
    var toEmail: string
    var busyNew: bool
    var busySend: bool
    /** The account whose conversation list is subscribed to, if any. */
    var listening: Option<Uid>
    /** The conversation whose messages are subscribed to; "" when none. */
    var watching: ConvId

    /**
     * Between events: `ready` implies an account; the two subscriptions run
     * exactly when their effects' conditions hold; the message list is empty
     * when not ready or nothing is selected; no handler is busy.
     */
    ghost predicate Valid()
      reads this
    {
      && (ready ==> me.Some?)
      && listening == (if ready then Some(me.value.uid) else None)
      && watching == (if ready then cid else "")
      && (!ready || cid == "" ==> msgs == [])
      && !busyNew && !busySend
    }

    /** Re-runs the subscription effects after a state change. */
    method RunEffects()
      requires ready ==> me.Some?
      modifies this`listening, this`watching, this`msgs
      ensures listening == (if ready then Some(me.value.uid) else None)
      ensures watching == (if ready then cid else "")
      ensures msgs == if !ready || cid == "" then [] else old(msgs)
    {
      listening := if ready then Some(me.value.uid) else None;
      if !ready || cid == "" {
        msgs := [];
        watching := "";
      } else {
        watching := cid;
      }
    }

    /** Mounting the page: the route's conversation id (or none) is selected, nothing is ready. */
    constructor (routeCid: Option<string>, current: Option<AuthUser>)
      ensures Valid()
      ensures me == current && !ready && cid == OrEmpty(routeCid)
      ensures convos == [] && msgs == [] && input == "" && toEmail == ""
      ensures listening.None? && watching == ""
    {
      me := current;
      ready := false;
      convos := [];
      cid := OrEmpty(routeCid);
      msgs := [];
      input := "";
      toEmail := "";
      busyNew := false;
      busySend := false;
      listening := None;
      watching := "";
    }

    /**
     * The auth listener. Signing out clears `ready`. Signing in ensures the
     * account's user document and then sets `ready` whether that succeeded
     * or failed; its outcome `r` is what escapes the handler.
     */
    method OnAuthStateChanged(u: Option<AuthUser>, db: Db, net: Net) returns (r: Result<()>)
      requires Valid()
      modifies this`me, this`ready, this`listening, this`watching, this`msgs, db
      ensures Valid()
      ensures me == u && ready == u.Some?
      ensures Step(r, db.State()) == Users.SelfEnsured(old(db.State()), u, net)
      ensures msgs == if u.None? || cid == "" then [] else old(msgs)
    {
      me := u;
      if u.None? {
        ready := false;
        r := Ok(());
      } else {
        r := Users.EnsureSelfUserDoc(db, u, net);
        ready := true;
      }
      RunEffects();
    }

    /**
     * A conversation-list snapshot: the list is replaced by the account's
     * conversations, most recently updated first, and the first row is
     * selected only when nothing is selected.
     */
    method OnConversationsSnapshot(db: Db)
      requires Valid() && listening.Some?
      modifies this`convos, this`cid, this`listening, this`watching, this`msgs
      ensures Valid()
      ensures convos == ConversationsView(db.convs, me.value.uid)
      ensures cid == AutoSelect(old(cid), convos)
      ensures msgs == old(msgs)
    {
      var rows := ConversationsView(db.convs, listening.value);
      Show(rows);
    }

    /** Replaces the listed conversations by `rows` and selects the first one when nothing is selected. */
    method Show(rows: seq<ConvRow>)
      requires Valid() && listening.Some?
      modifies this`convos, this`cid, this`listening, this`watching, this`msgs
      ensures Valid()
      ensures convos == rows
      ensures cid == AutoSelect(old(cid), rows)
      ensures msgs == old(msgs)
    {
      convos := rows;
      cid := AutoSelect(cid, rows);
      RunEffects();
    }

    /** A message snapshot: the list becomes the selected conversation's messages, oldest first. */
    method OnMessagesSnapshot(db: Db)
      requires Valid() && watching != ""
      modifies this`msgs
      ensures Valid()
      ensures msgs == MessagesView(db.logs, cid)
      ensures LogsValid(db.logs, db.clock) ==> msgs == LogOf(db.logs, cid)
    {
      msgs := MessagesView(db.logs, watching);
      if LogsValid(db.logs, db.clock) {
        MessagesViewIsLog(db.logs, watching, db.clock);
      }
    }

    /** A message-subscription error (no permission): the list is emptied. */
    method OnMessagesError()
      requires Valid() && watching != ""
      modifies this`msgs
      ensures Valid() && msgs == []
    {
      msgs := [];
    }

    /** A click on the `k`-th listed conversation selects it. */
    method Select(k: nat)
      requires Valid() && ready && k < |convos|
      modifies this`cid, this`listening, this`watching, this`msgs
      ensures Valid()
      ensures cid == old(convos)[k].id && watching == cid
      ensures msgs == if cid == "" then [] else old(msgs)
    {
      cid := convos[k].id;
      RunEffects();
    }

    method EditInput(s: string)
      requires Valid()
      modifies this`input
      ensures Valid() && input == s
    {
      input := s;
    }

    method EditEmail(s: string)
      requires Valid()
      modifies this`toEmail
      ensures Valid() && toEmail == s
    {
      toEmail := s;
    }

    /**
     * The new-conversation form. A blank e-mail, a page that is not ready or
     * a missing account does nothing (`r` is None). Otherwise it finds or
     * creates the conversation with the trimmed e-mail; on success it selects
     * it and clears the field, on failure it leaves both as they were.
     */
    method StartNew(db: Db, net: Net) returns (r: Option<Result<ConvRow>>)
      requires Valid()
      modifies this`cid, this`toEmail, this`busyNew, this`listening, this`watching, this`msgs, db
      ensures Valid()
      ensures r.None? <==> Trim(old(toEmail)) == [] || !ready || me.None?
      ensures r.None? ==> unchanged(this) && unchanged(db)
      ensures r.Some? ==> Step(r.value, db.State()) == Ensured(old(db.State()), me, Trim(old(toEmail)), net)
      ensures r.Some? && r.value.Ok? ==> cid == r.value.value.id && toEmail == ""
      ensures r.Some? && r.value.Ok? ==> cid in db.convs.docs && me.value.uid in db.convs.docs[cid].members
      ensures r.Some? && r.value.Err? ==> cid == old(cid) && toEmail == old(toEmail)
      ensures msgs == if cid == "" then [] else old(msgs)
    {
      var email := Trim(toEmail);
      if email == [] || !ready || me.None? {
        return None;
      }
      var res := Open(db, email, net);
      r := Some(res);
    }

    /** The awaited part of the new-conversation form, once its guard has passed. */
    method Open(db: Db, email: string, net: Net) returns (res: Result<ConvRow>)
      requires Valid() && ready && me.Some?
      modifies this`cid, this`toEmail, this`busyNew, this`listening, this`watching, this`msgs, db
      ensures Valid()
      ensures Step(res, db.State()) == Ensured(old(db.State()), me, email, net)
      ensures res.Ok? ==> cid == res.value.id && toEmail == ""
      ensures res.Ok? ==> cid in db.convs.docs && me.value.uid in db.convs.docs[cid].members
      ensures res.Err? ==> cid == old(cid) && toEmail == old(toEmail)
      ensures msgs == if cid == "" then [] else old(msgs)
    {
      busyNew := true;
      ghost var before := db.State();
      res := EnsureConversationWithEmail(db, me, email, net);
      if res.Ok? {
        EnsuredResultStored(before, me, email, net);
      }
      Opened(res);
    }

    /** The end of the new-conversation form: a conversation it obtained is selected and the field cleared. */
    method Opened(res: Result<ConvRow>)
      requires ready && me.Some? && busyNew && !busySend
      requires listening == Some(me.value.uid) && watching == cid && (cid == "" ==> msgs == [])
      modifies this`cid, this`toEmail, this`busyNew, this`listening, this`watching, this`msgs
      ensures Valid()
      ensures cid == (if res.Ok? then res.value.id else old(cid))
      ensures toEmail == (if res.Ok? then "" else old(toEmail))
      ensures msgs == if cid == "" then [] else old(msgs)
    {
      if res.Ok? {
        cid := res.value.id;
        toEmail := "";
      }
      busyNew := false;
      RunEffects();
    }

    /**
     * The send form. A blank input, no selection, a page that is not ready
     * or a missing account does nothing (`r` is None). Otherwise the input is
     * cleared and the untrimmed text sent to the selected conversation; on
     * failure the input is restored to exactly that text.
     */
    method OnSend(db: Db, net: Net) returns (r: Option<Result<Option<MsgId>>>)
      requires Valid()
      modifies this`input, this`busySend, db
      ensures Valid()
      ensures r.None? <==> Trim(old(input)) == [] || cid == "" || !ready || me.None?
      ensures r.None? ==> unchanged(this) && unchanged(db)
      ensures r.Some? ==> Step(r.value, db.State()) == Sent(old(db.State()), me, cid, old(input), net)
      ensures r.Some? && r.value.Ok? ==> r.value.value.Some? && input == ""
      ensures r.Some? && r.value.Err? ==> input == old(input)
    {
      if Trim(input) == [] || cid == "" || !ready || me.None? {
        return None;
      }
      var body := input;
      input := "";
      busySend := true;
      var res := SendMessage(db, me, cid, body, net);
      if res.Err? {
        input := body;
      }
      busySend := false;
      r := Some(res);
    }
  }
}

=== FILE: sorting.dfy ===
/**
 * The ordering a single-field ordered query applies to its result rows:
 * a stable sort by an integer key. A descending order is an ascending order
 * of the negated key.
 */
module Sorting {

  ghost predicate Ascending<T>(s: seq<T>, key: T -> int) {
    forall i, j :: 0 <= i < j < |s| ==> key(s[i]) <= key(s[j])
  }

  /** Places `x` before the first element whose key is not smaller than its own. */
  function Insert<T>(x: T, s: seq<T>, key: T -> int): (r: seq<T>)
    requires Ascending(s, key)
    ensures Ascending(r, key)
    ensures multiset(r) == multiset(s) + multiset{x}
    ensures |r| == |s| + 1 && (r[0] == x || (s != [] && r[0] == s[0]))
  {
    if s == [] || key(x) <= key(s[0]) then
      [x] + s
    else
      var rest := Insert(x, s[1..], key);
      assert s == [s[0]] + s[1..];
      assert key(s[0]) <= key(rest[0]);
      [s[0]] + rest
  }

  /** Insertion sort: the result is ascending by `key` and a permutation of `s`. */
  function Sort<T>(s: seq<T>, key: T -> int): (r: seq<T>)
    ensures |r| == |s|
    ensures Ascending(r, key)
    ensures multiset(r) == multiset(s)
  {
    if s == [] then
      []
    else
      assert s == [s[0]] + s[1..];
      Insert(s[0], Sort(s[1..], key), key)
  }

  /**
   * Stability on input that is already in order: sorting changes nothing, so
   * rows with equal keys keep the order the store listed them in.
   */
  lemma {:induction false} SortOfAscending<T>(s: seq<T>, key: T -> int)
    requires Ascending(s, key)
    ensures Sort(s, key) == s
  {
    if s != [] {
      SortOfAscending(s[1..], key);
      assert s == [s[0]] + s[1..];
    }
  }
}

=== FILE: store.dfy ===
/**
 * The records the services read and write, and an abstract document store
 * holding the `users` and `conversations` collections and the per-conversation
 * `messages` sub-collections.
 *
 * The store stands in for the hosted database: every committed write takes a
 * server timestamp from a monotone clock, every added document gets a fresh
 * automatic id, and queries list documents in the store's own listing order
 * (`order`). Store calls that fail (network, permissions) are chosen by a
 * `Net` parameter of each operation.
 */
module Store {

  type Uid = string
  type ConvId = string
  type MsgId = string
  type Time = nat

  datatype Option<T> = None | Some(value: T)

  /** The ways a service call ends in an exception. */
  datatype Error =
    | NotSignedIn      // "Not signed in"
    | UserNotFound     // "User not found by email"
    | StoreFailure     // a store call was rejected or did not reach the store
    | NoSuchDocument   // an update addressed a document that does not exist

  datatype Result<T> = Ok(value: T) | Err(error: Error)

  /**
   * The outcome of the store calls of one operation, numbered from 1 in the
   * order the operation awaits them: with `FailsAt(k)` call `k` throws (and
   * the operation never reaches a later one).
   */
  datatype Net = Healthy | FailsAt(call: nat)

  predicate Succeeds(net: Net, call: nat) {
    net.Healthy? || call < net.call
  }

  /** The signed-in account as the authentication service reports it. */
  datatype AuthUser = AuthUser(uid: Uid, email: Option<string>, displayName: Option<string>, photoURL: Option<string>)

  /** JavaScript truthiness of an optional string: present and not "". */
  predicate Truthy(o: Option<string>) {
    o.Some? && o.value != ""
  }

  /** `a || b` */
  function Or(a: Option<string>, b: Option<string>): Option<string> {
    if Truthy(a) then a else b
  }

  /** `a || null` */
  function OrNull(a: Option<string>): Option<string> {
    if Truthy(a) then a else None
  }

  /** `a || ""` */
  function OrEmpty(a: Option<string>): string {
    if Truthy(a) then a.value else ""
  }

  /**
   * A `/users/{uid}` document. Every field may be missing in a document
   * written by other code; `firstName` and `extra` stand for the fields this
   * code never writes but reads or must preserve.
   */
  datatype UserDoc = UserDoc(
    email: Option<string>,
    normalizedEmail: Option<string>,
    firstName: Option<string>,
    displayName: Option<string>,
    photoURL: Option<string>,
    createdAt: Option<Time>,
    updatedAt: Option<Time>,
    extra: map<string, string>)

  /** The `users` collection: documents by uid, and the store's listing order. */
  datatype Directory = Directory(docs: map<Uid, UserDoc>, order: seq<Uid>)

  /** A participant snapshot kept inside a conversation (`membersInfo[uid]`). */
  datatype MemberInfo = MemberInfo(uid: Uid, email: Option<string>, displayName: Option<string>, photoURL: Option<string>)

  datatype LastMessage = LastMessage(text: string, from: Option<Uid>, createdAt: Time)

  datatype Conversation = Conversation(
    members: seq<Uid>,
    membersInfo: map<Uid, MemberInfo>,
    lastMessage: LastMessage,
    createdAt: Time,
    updatedAt: Time)

  /** The `conversations` collection: documents by id, and the store's listing order. */
  datatype Registry = Registry(docs: map<ConvId, Conversation>, order: seq<ConvId>)

  /** A query row `{ id: d.id, ...d.data() }` of the conversations collection. */
  datatype ConvRow = ConvRow(id: ConvId, conv: Conversation)

  datatype Message = Message(from: Uid, text: string, createdAt: Time)

  /** A query row of a messages sub-collection. */
  datatype MsgRow = MsgRow(id: MsgId, msg: Message)

  predicate Distinct<T(==)>(s: seq<T>) {
    forall i, j :: 0 <= i < j < |s| ==> s[i] != s[j]
  }

  /** The listing order lists every document of the collection exactly once. */
  ghost predicate Indexed<V>(docs: map<string, V>, order: seq<string>) {
    && Distinct(order)
    && (forall i :: 0 <= i < |order| ==> order[i] in docs)
    && (forall k :: k in docs ==> k in order)
  }

  ghost predicate DirectoryValid(dir: Directory) {
    Indexed(dir.docs, dir.order)
  }

  /** Conversations are indexed and every id is one of the first `nextId` automatic ids. */
  ghost predicate RegistryValid(reg: Registry, nextId: nat) {
    Indexed(reg.docs, reg.order) && forall id :: id in reg.docs ==> 0 < |id| <= nextId
  }

  /** A message log in commit order: strictly increasing timestamps, none in the future. */
  ghost predicate LogValid(log: seq<MsgRow>, clock: Time) {
    && (forall i :: 0 <= i < |log| ==> log[i].msg.createdAt <= clock)
    && (forall i, j :: 0 <= i < j < |log| ==> log[i].msg.createdAt < log[j].msg.createdAt)
  }

  ghost predicate LogsValid(logs: map<ConvId, seq<MsgRow>>, clock: Time) {
    forall c :: c in logs ==> LogValid(logs[c], clock)
  }

  /**
   * The automatic id given to the n-th added document. Ids of different
   * documents differ in length, and none is empty.
   */
  function AutoId(n: nat): (id: string)
    ensures |id| == n + 1
  {
    seq(n + 1, _ => '#')
  }

  /** A snapshot of the whole store, for stating what an operation does to it. */
  datatype DbState = DbState(
    users: Directory,
    convs: Registry,
    logs: map<ConvId, seq<MsgRow>>,
    clock: Time,
    nextId: nat)

  /** The store is consistent: every collection indexed, conversation ids handed out, no message in the future. */
  ghost predicate StateValid(s: DbState) {
    && DirectoryValid(s.users)
    && RegistryValid(s.convs, s.nextId)
    && LogsValid(s.logs, s.clock)
  }

  /** Validity survives a later clock and more ids handed out. */
  lemma RegistryValidLater(reg: Registry, nextId: nat, nextId': nat)
    requires RegistryValid(reg, nextId) && nextId <= nextId'
    ensures RegistryValid(reg, nextId')
  {
  }

  lemma LogsValidLater(logs: map<ConvId, seq<MsgRow>>, clock: Time, clock': Time)
    requires LogsValid(logs, clock) && clock <= clock'
    ensures LogsValid(logs, clock')
  {
    forall c | c in logs ensures LogValid(logs[c], clock') {
      assert LogValid(logs[c], clock);
    }
  }

  /** What an operation returns, and the store it leaves behind. */
  datatype Step<T> = Step(result: Result<T>, after: DbState)

  /** The database the services talk to. */
  class Db {
    var users: Directory
    var convs: Registry
    var logs: map<ConvId, seq<MsgRow>>
    /** The latest server timestamp handed out. */
    var clock: Time
    /** The number of automatic ids handed out. */
    var nextId: nat

    function State(): DbState
      reads this
    {
      DbState(users, convs, logs, clock, nextId)
    }

    constructor ()
      ensures StateValid(State())
      ensures users == Directory(map[], []) && convs == Registry(map[], []) && logs == map[]
      ensures clock == 0 && nextId == 0
    {
      users := Directory(map[], []);
      convs := Registry(map[], []);
      logs := map[];
      clock := 0;
      nextId := 0;
    }

    /** The server timestamp of the write being committed: later than every earlier one. */
    method Tick() returns (t: Time)
      modifies this`clock
      ensures clock == old(clock) + 1 && t == clock
    {
      clock := clock + 1;
      t := clock;
    }

    /** The next automatic document id, never handed out before. */
    method NewId() returns (id: string)
      modifies this`nextId
      ensures id == AutoId(old(nextId)) && nextId == old(nextId) + 1
    {
      id := AutoId(nextId);
      nextId := nextId + 1;
    }
  }
}

=== FILE: text.dfy ===
/**
 * String helpers the services use on e-mail addresses and message bodies:
 * `trim`, `toLowerCase`, their composition (the e-mail normalisation) and
 * `slice(0, n)`.
 *
 * Simplifications: whitespace is the ASCII set (space, and U+0009 tab through
 * U+000D carriage return), and case folding maps only 'A'..'Z' to 'a'..'z'.
 * A `char` is one Unicode scalar value, not a UTF-16 code unit.
 */
module Text {

  /** ASCII whitespace: space, tab, line feed, vertical tab, form feed, carriage return. */
  predicate IsSpace(c: char) {
    c == ' ' || '\t' <= c <= '\r'
  }

  predicate AllSpace(s: string) {
    forall i :: 0 <= i < |s| ==> IsSpace(s[i])
  }

  /** Neither the first nor the last character (if any) is whitespace. */
  predicate Tight(s: string) {
    s == [] || (!IsSpace(s[0]) && !IsSpace(s[|s| - 1]))
  }

  /** The number of whitespace characters `s` starts with: the first other character follows them. */
  function LeadingSpace(s: string): (k: nat)
    ensures k <= |s|
    ensures k < |s| ==> !IsSpace(s[k])
  {
    if s != [] && IsSpace(s[0]) then LeadingSpace(s[1..]) + 1 else 0
  }

  /** The number of whitespace characters `s` ends with: the last other character precedes them. */
  function TrailingSpace(s: string): (k: nat)
    ensures k <= |s|
    ensures k < |s| ==> !IsSpace(s[|s| - k - 1])
  {
    if s != [] && IsSpace(s[|s| - 1]) then TrailingSpace(s[..|s| - 1]) + 1 else 0
  }

  /** What `LeadingSpace` counts is whitespace. */
  lemma {:induction false} LeadingSpaceIsSpace(s: string)
    ensures AllSpace(s[..LeadingSpace(s)])
  {
    if s != [] && IsSpace(s[0]) {
      LeadingSpaceIsSpace(s[1..]);
      assert s[..LeadingSpace(s)] == [s[0]] + s[1..][..LeadingSpace(s[1..])];
    }
  }

  /** What `TrailingSpace` counts is whitespace. */
  lemma {:induction false} TrailingSpaceIsSpace(s: string)
    ensures AllSpace(s[|s| - TrailingSpace(s)..])
  {
    if s != [] && IsSpace(s[|s| - 1]) {
      var front := s[..|s| - 1];
      var k := TrailingSpace(front);
      TrailingSpaceIsSpace(front);
      var tail := s[|s| - (k + 1)..];
      forall j | 0 <= j < |tail| ensures IsSpace(tail[j]) {
        if j < k {
          assert tail[j] == front[|front| - k..][j];
        }
      }
    }
  }

  /**
   * `String.prototype.trim`: drops the leading whitespace, then the trailing
   * whitespace of what is left. The result neither starts nor ends with
   * whitespace.
   */
  function Trim(s: string): (r: string)
    ensures |r| <= |s|
    ensures Tight(r)
  {
    var a := LeadingSpace(s);
    var rest := s[a..];
    var b := TrailingSpace(rest);
    assert rest[..|rest| - b] == s[a..|s| - b];
    s[a..|s| - b]
  }

  /** What trimming drops is whitespace on both sides: `s` is the result with all-space padding. */
  lemma TrimDropsOnlySpace(s: string)
    ensures exists p, q :: AllSpace(p) && AllSpace(q) && s == p + Trim(s) + q
  {
    var a := LeadingSpace(s);
    var b := TrailingSpace(s[a..]);
    LeadingSpaceIsSpace(s);
    TrailingSpaceIsSpace(s[a..]);
    assert s[a..][|s[a..]| - b..] == s[|s| - b..];
    assert s == s[..a] + Trim(s) + s[|s| - b..];
  }

  /** Leading whitespace before a part that does not start with whitespace is counted exactly. */
  lemma {:induction false} LeadingSpacePadded(w: string, v: string)
    requires AllSpace(w) && (v == [] || !IsSpace(v[0]))
    ensures LeadingSpace(w + v) == |w|
  {
    if w != [] {
      assert (w + v)[1..] == w[1..] + v;
      LeadingSpacePadded(w[1..], v);
    } else {
      assert w + v == v;
    }
  }

  /** Trailing whitespace after a part that does not end with whitespace is counted exactly. */
  lemma {:induction false} TrailingSpacePadded(v: string, w: string)
    requires AllSpace(w) && (v == [] || !IsSpace(v[|v| - 1]))
    ensures TrailingSpace(v + w) == |w|
  {
    if w != [] {
      assert (v + w)[..|v + w| - 1] == v + w[..|w| - 1];
      TrailingSpacePadded(v, w[..|w| - 1]);
    } else {
      assert v + w == v;
    }
  }

  /**
   * The converse of Trim's contract: whatever whitespace surrounds a tight
   * string, trimming gives back exactly that string.
   */
  lemma {:induction false} TrimPadded(w1: string, v: string, w2: string)
    requires AllSpace(w1) && AllSpace(w2) && Tight(v)
    ensures Trim(w1 + v + w2) == v
  {
    var s := w1 + v + w2;
    if v == [] {
      assert s == (w1 + w2) + [];
      assert AllSpace(w1 + w2);
      LeadingSpacePadded(w1 + w2, []);
      assert s[|s|..] == [];
    } else {
      assert s == w1 + (v + w2);
      LeadingSpacePadded(w1, v + w2);
      assert s[|w1|..] == v + w2;
      TrailingSpacePadded(v, w2);
      assert s[|w1|..|s| - |w2|] == v;
    }
  }

  /** A string trims to nothing exactly when it is all whitespace. */
  lemma TrimEmptyIffAllSpace(s: string)
    ensures Trim(s) == [] <==> AllSpace(s)
  {
    if AllSpace(s) {
      TrimPadded(s, [], []);
      assert s + [] + [] == s;
    } else {
      TrimDropsOnlySpace(s);
      var p, q :| AllSpace(p) && AllSpace(q) && s == p + Trim(s) + q;
      assert Trim(s) != [];
    }
  }

  /** ASCII `toLowerCase` of one character. */
  function LowerChar(c: char): (r: char)
    ensures !('A' <= r <= 'Z')
    ensures IsSpace(r) == IsSpace(c)
    ensures !('A' <= c <= 'Z') ==> r == c
    ensures 'A' <= c <= 'Z' ==> r as int == c as int + 32
  {
    if 'A' <= c <= 'Z' then (c as int + 32) as char else c
  }

  /** `String.prototype.toLowerCase` over ASCII letters, character by character. */
  function ToLower(s: string): (r: string)
    ensures |r| == |s|
    ensures forall i :: 0 <= i < |s| ==> r[i] == LowerChar(s[i])
  {
    seq(|s|, i requires 0 <= i < |s| => LowerChar(s[i]))
  }

  predicate NoUpper(s: string) {
    forall i :: 0 <= i < |s| ==> !('A' <= s[i] <= 'Z')
  }

  lemma LowerOfLowerUnchanged(s: string)
    requires NoUpper(s)
    ensures ToLower(s) == s
  {
  }

  /**
   * The e-mail normalisation `email.trim().toLowerCase()`: never longer than
   * the input.
   */
  function Normalize(s: string): (r: string)
    ensures |r| <= |s|
  {
    ToLower(Trim(s))
  }

  /** A normalised address has no surrounding whitespace and no upper-case letter. */
  lemma NormalizeIsNormal(s: string)
    ensures Tight(Normalize(s)) && NoUpper(Normalize(s))
  {
    var t := Trim(s);
    var r := ToLower(t);
    assert t != [] ==> r[0] == LowerChar(t[0]) && r[|r| - 1] == LowerChar(t[|t| - 1]);
  }

  /** Normalising twice is normalising once. */
  lemma {:induction false} NormalizeIdempotent(s: string)
    ensures Normalize(Normalize(s)) == Normalize(s)
  {
    var n := Normalize(s);
    NormalizeIsNormal(s);
    assert [] + n + [] == n;
    TrimPadded([], n, []);
    assert Trim(n) == n;
    LowerOfLowerUnchanged(n);
    assert Normalize(n) == ToLower(Trim(n));
  }

  /**
   * Any whitespace padding and any change of letter case of an address
   * normalises to the same string as the address itself.
   */
  lemma {:induction false} NormalizeIgnoresPaddingAndCase(email: string, w1: string, v: string, w2: string)
    requires AllSpace(w1) && AllSpace(w2)
    requires ToLower(v) == ToLower(Trim(email))
    ensures Normalize(w1 + v + w2) == Normalize(email)
  {
    var t := Trim(email);
    assert |v| == |t|;
    if v != [] {
      assert LowerChar(v[0]) == LowerChar(t[0]);
      assert LowerChar(v[|v| - 1]) == LowerChar(t[|t| - 1]);
    }
    assert Tight(v);
    TrimPadded(w1, v, w2);
  }

  /**
   * Conversely, two strings normalise alike only when the first is the second's
   * trimmed text up to letter case, padded with whitespace: normalisation
   * identifies nothing else.
   */
  lemma NormalizeSameOnlyForVariants(s: string, email: string)
    requires Normalize(s) == Normalize(email)
    ensures exists w1, v, w2 ::
      AllSpace(w1) && AllSpace(w2) && ToLower(v) == ToLower(Trim(email)) && s == w1 + v + w2
  {
    TrimDropsOnlySpace(s);
  }

  /** `s.slice(0, n)`: the first `min(n, |s|)` characters. */
  function Prefix(s: string, n: nat): (r: string)
    ensures |r| == if |s| < n then |s| else n
    ensures r <= s
  {
    if |s| <= n then s else s[..n]
  }
}

=== FILE: users.dfy ===
/**
 * `ensureSelfUserDoc`: the signed-in account creates or refreshes its own
 * `/users/{uid}` document, so that other accounts can find it by e-mail.
 */
module Users {
  import opened Text
  import opened Store

  /**
   * The document written when none exists: the base fields plus `createdAt`.
   * Both timestamps are the write's time, no profile field beyond the base
   * ones is set, and the stored key is the normalised stored e-mail.
   */
  function Created(u: AuthUser, t: Time): (r: UserDoc)
    ensures r.createdAt == Some(t) && r.updatedAt == Some(t)
    ensures r.firstName.None? && r.extra == map[]
    ensures r.email.Some? && r.normalizedEmail == Some(Normalize(r.email.value))
  {
    UserDoc(
      email := Some(OrEmpty(u.email)),
      normalizedEmail := Some(Normalize(OrEmpty(u.email))),
      firstName := None,
      displayName := Some(OrEmpty(u.displayName)),
      photoURL := Some(OrEmpty(u.photoURL)),
      createdAt := Some(t),
      updatedAt := Some(t),
      extra := map[])
  }

  /**
   * A merge write of the base fields into an existing document; everything
   * else is kept. The base fields are those a create would write.
   */
  function Merged(d: UserDoc, u: AuthUser, t: Time): (r: UserDoc)
    ensures r.createdAt == d.createdAt && r.firstName == d.firstName && r.extra == d.extra
    ensures r.updatedAt == Some(t)
    ensures var c := Created(u, t);
      r.email == c.email && r.normalizedEmail == c.normalizedEmail
      && r.displayName == c.displayName && r.photoURL == c.photoURL
  {
    d.(email := Some(OrEmpty(u.email)),
       normalizedEmail := Some(Normalize(OrEmpty(u.email))),
       displayName := Some(OrEmpty(u.displayName)),
       photoURL := Some(OrEmpty(u.photoURL)),
       updatedAt := Some(t))
  }

  /**
   * The directory after the upsert of `u`'s document at server time `t`:
   * only `u.uid`'s document changes, it is listed once, and its base fields
   * are the account's current values (missing ones as "").
   */
  function Upsert(dir: Directory, u: AuthUser, t: Time): (r: Directory)
    ensures r.docs.Keys == dir.docs.Keys + {u.uid}
    ensures var d := r.docs[u.uid];
      && d.email == Some(OrEmpty(u.email))
      && d.normalizedEmail == Some(Normalize(OrEmpty(u.email)))
      && d.displayName == Some(OrEmpty(u.displayName))
      && d.photoURL == Some(OrEmpty(u.photoURL))
      && d.updatedAt == Some(t)
  {
    if u.uid in dir.docs then
      Directory(dir.docs[u.uid := Merged(dir.docs[u.uid], u, t)], dir.order)
    else
      Directory(dir.docs[u.uid := Created(u, t)], dir.order + [u.uid])
  }

  /** The upsert changes no other account's document and keeps the directory indexed. */
  lemma UpsertKeepsOthers(dir: Directory, u: AuthUser, t: Time)
    ensures forall v :: v in dir.docs && v != u.uid ==> Upsert(dir, u, t).docs[v] == dir.docs[v]
    ensures Indexed(dir.docs, dir.order) ==> Indexed(Upsert(dir, u, t).docs, Upsert(dir, u, t).order)
  {
  }

  /** A new document is created with both timestamps set to the write's time. */
  lemma UpsertCreates(dir: Directory, u: AuthUser, t: Time)
    requires u.uid !in dir.docs
    ensures var d := Upsert(dir, u, t).docs[u.uid];
      d.createdAt == Some(t) && d.updatedAt == Some(t)
    ensures Upsert(dir, u, t).order == dir.order + [u.uid]
  {
  }

  /** An existing document keeps `createdAt` and every field outside the base fields. */
  lemma UpsertMerges(dir: Directory, u: AuthUser, t: Time)
    requires u.uid in dir.docs
    ensures var before := dir.docs[u.uid];
      var d := Upsert(dir, u, t).docs[u.uid];
      d.createdAt == before.createdAt && d.firstName == before.firstName && d.extra == before.extra
    ensures Upsert(dir, u, t).order == dir.order
  {
  }

  /**
   * Idempotence: a second upsert of the same account adds no document,
   * keeps `createdAt` and changes nothing but `updatedAt`, which does not
   * go back.
   */
  lemma {:induction false} UpsertTwice(dir: Directory, u: AuthUser, t1: Time, t2: Time)
    requires t1 <= t2
    ensures var d1 := Upsert(dir, u, t1);
      var d2 := Upsert(d1, u, t2);
      && d2.order == d1.order
      && d2.docs.Keys == d1.docs.Keys
      && d2.docs[u.uid] == d1.docs[u.uid].(updatedAt := Some(t2))
      && d2.docs[u.uid].createdAt == d1.docs[u.uid].createdAt
      && d1.docs[u.uid].updatedAt.value <= d2.docs[u.uid].updatedAt.value
      && (forall v :: v in d1.docs && v != u.uid ==> d2.docs[v] == d1.docs[v])
  {
    var d1 := Upsert(dir, u, t1);
    assert u.uid in d1.docs;
  }

  /**
   * What `ensureSelfUserDoc` does: nothing without a signed-in account;
   * nothing but a failure when a store call fails; otherwise the upsert of
   * the account's document at the next server time, and no other change.
   */
  function SelfEnsured(before: DbState, current: Option<AuthUser>, net: Net): (r: Step<()>)
    ensures r.result.Err? ==> r.after == before
    ensures r.after.convs == before.convs && r.after.logs == before.logs && r.after.nextId == before.nextId
  {
    if current.None? then
      Step(Ok(()), before)
    else if !Succeeds(net, 2) then
      Step(Err(StoreFailure), before)
    else
      Step(Ok(()), before.(users := Upsert(before.users, current.value, before.clock + 1), clock := before.clock + 1))
  }

  /**
   * The outcomes: without an account nothing happens; the call fails exactly
   * when one of its two store calls fails, and then nothing is written;
   * otherwise the account's document is upserted at the next server time.
   * Conversations and messages are never touched.
   */
  lemma SelfEnsuredOutcomes(before: DbState, current: Option<AuthUser>, net: Net)
    ensures var s := SelfEnsured(before, current, net);
      && (current.None? ==> s == Step(Ok(()), before))
      && (s.result.Err? <==> current.Some? && !Succeeds(net, 2))
      && (s.result.Err? ==> s.result.error == StoreFailure && s.after == before)
      && (current.Some? && s.result.Ok? ==>
            && s.after.users == Upsert(before.users, current.value, before.clock + 1)
            && s.after.clock == before.clock + 1)
      && s.after.convs == before.convs && s.after.logs == before.logs && s.after.nextId == before.nextId
  {
  }

  /** The upsert at the next server time keeps a consistent store consistent. */
  lemma UpsertKeepsStateValid(before: DbState, u: AuthUser)
    requires StateValid(before)
    ensures StateValid(DbState(Upsert(before.users, u, before.clock + 1), before.convs, before.logs, before.clock + 1, before.nextId))
  {
    LogsValidLater(before.logs, before.clock, before.clock + 1);
    UpsertKeepsOthers(before.users, u, before.clock + 1);
  }

  /** The operation keeps a consistent store consistent. */
  lemma SelfEnsuredKeepsValid(before: DbState, current: Option<AuthUser>, net: Net)
    requires StateValid(before)
    ensures StateValid(SelfEnsured(before, current, net).after)
  {
    if current.Some? && Succeeds(net, 2) {
      var u := current.value;
      UpsertKeepsStateValid(before, u);
      assert SelfEnsured(before, current, net).after
        == DbState(Upsert(before.users, u, before.clock + 1), before.convs, before.logs, before.clock + 1, before.nextId);
    } else {
      assert SelfEnsured(before, current, net).after == before;
    }
  }

  /**
   * The write of store call 2, once the read has told whether the document
   * exists: a create with `createdAt`, or a merge of the base fields.
   */
  method WriteSelf(db: Db, u: AuthUser, exists_: bool)
    requires exists_ == (u.uid in db.users.docs)
    modifies db
    ensures db.State() == old(db.State()).(users := Upsert(old(db.users), u, old(db.clock) + 1), clock := old(db.clock) + 1)
  {
    var t := db.Tick();
    if !exists_ {
      db.users := Directory(db.users.docs[u.uid := Created(u, t)], db.users.order + [u.uid]);
    } else {
      db.users := db.users.(docs := db.users.docs[u.uid := Merged(db.users.docs[u.uid], u, t)]);
    }
  }

  /**
   * Reads the account's document (store call 1), then writes it (store call
   * 2): a create with `createdAt` when it does not exist, a merge otherwise.
   */
  method EnsureSelfUserDoc(db: Db, current: Option<AuthUser>, net: Net) returns (r: Result<()>)
    modifies db
    ensures Step(r, db.State()) == SelfEnsured(old(db.State()), current, net)
  {
    if current.None? {
      return Ok(());
    }
    var u := current.value;
    if !Succeeds(net, 1) {
      return Err(StoreFailure);
    }
    var found := u.uid in db.users.docs;
    if !Succeeds(net, 2) {
      return Err(StoreFailure);
    }
    WriteSelf(db, u, found);
    r := Ok(());
  }
}
